=== FILE: README.md ===
# Geometric core of a small 3D modeller, in Dafny

The modeller keeps a scene of nodes: cubes, spheres and a snow figure built
from three spheres. Each node has a palette colour, an axis-aligned bounding
box, a translation matrix and a scaling matrix. The user picks a node with a
ray cast from the cursor. The slab test is run against every node's box, and
the nearest node hit is selected. The user can then drag the selection at the
depth where it was picked, scale it, cycle its colour, or place a new node at
a fixed depth along the cursor ray. A virtual trackball accumulates the
camera orientation as a quaternion, renormalises it periodically and turns it
into a 4x4 rotation matrix.

The project models that core with immutable datatypes and pure functions over
`real`. There is one module per concept:

| file | module | what it holds |
|---|---|---|
| `wrappers.dfy` | `Wrappers` | `Option` and `Result` |
| `geometry.dfy` | `Geometry` | 3- and 4-vectors, row-major 4x4 matrices, rays, the trackball's vector helpers, and node.py's `translation`/`scaling` |
| `color.dfy` | `Color` | the eight-colour palette |
| `aabb.dfy` | `Aabb` | boxes and the slab test `ray_hit` |
| `nodes.dfy` | `Nodes` | node construction, translate, scale, pick, select, colour cycling, the snow figure |
| `scene.dfy` | `Scenes` | the scene list and selection: pick, move, place, and the edits of the selection |
| `trackball.dfy` | `Trackballs` | quaternion composition, the rotation matrix, and `drag_to`'s normalisation and counter |

Some source details are represented differently:
- A node's translation matrix is stored as its offset vector, and its scaling
  matrix as its diagonal. These are the only forms those matrices ever take.
  Lemmas tie every update to the matrix product the source computes.
- The attributes that `pick` attaches to the selected node (`depth`,
  `selected_loc`) become the node's `grab` field.
- Randomness is an input. Each value that `random.randint(MIN_COLOR, MAX_COLOR)`
  would draw is passed as a parameter, and a precondition keeps it in range.
  The snow figure's children draw colours too, but they are overwritten at
  once, so the model does not take them as parameters.
- Camera matrices, the inverse model-view and the viewport size are inputs.

## Model

| member | source | states |
|---|---|---|
| Geometry.Sub | trackball.py:30 | `_v_sub` undoes `_v_add`: adding b back to a - b gives a |
| Geometry.CrossOrthogonal | trackball.py:33-36 | `_v_cross(a, b)` is orthogonal to both a and b |
| Geometry.CrossSelf | trackball.py:33-36 | the cross product of a vector with itself is zero |
| Geometry.CrossAnticommutes | trackball.py:33-36 | swapping the factors of `_v_cross` negates it |
| Geometry.PointAt | scene.py:77 | `origin + direction * t` is the point whose offset from the origin is t times the direction |
| Geometry.DisplacementIgnoresTranslation | scene.py:79-80 | a delta with w = 0, mapped by a matrix, depends only on the matrix's 3x3 block |
| Geometry.DisplacementAdditive | scene.py:79-80 | mapping deltas with w = 0 is additive, so successive drags add up |
| Geometry.TranslationActs | node.py:29-33 | `translation(t)` moves points (w = 1) by t and leaves deltas (w = 0) unchanged |
| Geometry.ScalingActs | node.py:23-27 | `scaling(s)` multiplies each coordinate of a point by its diagonal entry |
| Geometry.TranslationOfZero | node.py:29-33 | the translation by zero is the identity that a node starts with |
| Geometry.ScalingOfOnes | node.py:23-27 | the scale by (1, 1, 1) is the identity that a node starts with |
| Geometry.TranslationsCompose | node.py:29-33 | the product of two translation matrices is the translation by the sum of the vectors |
| Geometry.ScalingsCompose | node.py:23-27 | the product of two scaling matrices is the scale by the component-wise product of the diagonals |
| Geometry.Reciprocal | node.py:97 | the reciprocal diagonal times the diagonal is (1, 1, 1) |
| Geometry.ReciprocalInvertsScaling | node.py:95-98 | the scale by the reciprocal diagonal is the two-sided inverse that `inv(scaling_matrix)` returns |
| Color.ColorOf | color.py:5-14 | every palette entry has RGB components in [0, 1] and is one of `COLORS` |
| Color.PaletteShape | color.py:5-16 | the palette has 8 entries, MIN_COLOR = 0, MAX_COLOR = 7, entry 0 is red and entry 7 is white |
| Aabb.ScaleBox | aabb.py:33-35 | `scale(s)` multiplies each half-extent by s and keeps the centre |
| Aabb.ScaleBoxComposes | aabb.py:33-35 | scaling a box by s and then by t is scaling it by s * t |
| Aabb.Order | aabb.py:66-67 | the swap puts the two slab crossings in order, and they are the same two values |
| Aabb.SlabFrom | aabb.py:63-75 | one loop iteration: a slab is crossed exactly when the slope exceeds EPSILON, its near and far crossings are (e + min)/f and (e + max)/f in ascending order, and otherwise the parallel test decides |
| Aabb.SlabOf | aabb.py:59-75 | the slab of axis i is crossed exactly when the ray is not parallel to that axis, and then its near and far crossings are the distances to the projected min and max faces in ascending order; otherwise it records whether the ray is outside the slab |
| Aabb.Clip | aabb.py:54-76 | the loop from iteration i reports a distance within the running interval on a hit, and exactly (False, 0.0) otherwise |
| Aabb.RayHit | aabb.py:37-76 | `ray_hit` as written: a hit lies in [0, 1e6], and every miss is (False, 0.0) |
| Aabb.RayHitCorrected | aabb.py:37-76 | the same bounds for the slab test with the parallel test's sign corrected |
| Aabb.ClipIsNearest | aabb.py:58-76 | from iteration i, the loop hits if and only if no parallel slab rejects the ray and some t in the interval lies in all the remaining slabs; on a hit it reports the least such t |
| Aabb.ScanIsNearest | aabb.py:54-76 | seeded with [0, 1e6], the loop hits if and only if some t in [0, 1e6] is inside every crossed slab and no parallel slab rejects the ray; it reports the least such t |
| Aabb.RayHitIsNearestEntry | aabb.py:37-76 | under either parallel rule, the slab test reports a hit exactly when no parallel slab's test rejects the ray and some t in [0, 1e6] lies in every crossed slab, and then it reports the least such t; under the source's rule a rejected slab need not mean the ray misses the box (see `Aabb.OffCentreParallelMiss`), nor a passed one that it meets it (see `Aabb.OffCentreParallelHit`) |
| Aabb.CentredSlabsAgree | aabb.py:74-75 | for a box centred on its origin, the source's parallel test and the corrected one compute the same slabs |
| Aabb.CentredBoxesAgree | aabb.py:74-75 | for a box centred on its origin, as every node's box is, `ray_hit` as written equals the corrected test |
| Aabb.IdentityFrame | aabb.py:55-61 | under the identity transform, e is minus the ray origin's coordinate and f is the direction's coordinate |
| Aabb.IdentitySlabs | aabb.py:55-61 | under the identity transform, each slab is computed from the plain coordinates of the ray |
| Aabb.DownShotClip | aabb.py:63-76 | a vertical ray above the box, inside its x and y extent, passes the two parallel slabs and is clipped to the top face |
| Aabb.DownShotHitsTopFace | aabb.py:37-76 | with the corrected test, a ray looking straight down onto an untransformed box hits it at the height above the top face |
| Aabb.CentredDownShotHitsTopFace | aabb.py:37-76 | the source's test gives the same hit for a centred box |
| Aabb.OneCrossedSlab | aabb.py:54-76 | when one slab is crossed from a near distance in [0, 1e6] and every other slab is parallel and passed, the loop reports that near distance |
| Aabb.AxisShotHitsNearFace | aabb.py:37-76 | with the corrected test, a ray aimed at an untransformed box along any of the six world-axis directions, inside the box's extent on the other two axes and at most 1e6 from the face it looks at, hits at the distance to that face |
| Aabb.CentredAxisShotHitsNearFace | aabb.py:37-76 | the source's test gives the same hit along all six directions for a centred box |
| Aabb.UnitBoxAlongMinusZ | aabb.py:37-76 | the default unit box, seen from (0, 0, 5) along -z, is hit at distance 4.5 |
| Aabb.StraddleZero | aabb.py:64-67 | for an origin strictly between the faces, the ordered crossings straddle 0 |
| Aabb.InsideHitsAtZero | aabb.py:54-76 | with the corrected test, a ray that starts strictly inside an untransformed box hits it at distance 0, whatever its direction |
| Aabb.InsideCentredHitsAtZero | aabb.py:54-76 | the source's test gives the same result for a centred box |
| Aabb.OffCentreDownShotRejected | aabb.py:74-75 | the source's parallel test rejects a vertical ray through the middle of an untransformed box whose centre lies more than (half-extent + EPSILON) / 2 on the +x side of the origin |
| Aabb.OffCentreParallelMiss | aabb.py:74-75 | for the box centred at (2, 0, 0) and the ray from (2, 0, 5) along -z, the source's test misses and the corrected test hits at 4.5 |
| Aabb.MirroredDownShotAccepted | aabb.py:74-75 | the source's parallel test passes a vertical ray above an untransformed box whose x and y lie in the mirror images of the box's extents through the origin, and reports the height above the top face wherever the box is; the corrected test misses it when x is outside the box's own x extent |
| Aabb.OffCentreParallelHit | aabb.py:74-75 | for the box centred at (2, 0, 0) and the ray from (-2, 0, 5) along -z, which stays outside the box's x extent, the source's test hits at 4.5 and the corrected test misses |
| Nodes.NodeOkInvertible | node.py:95-98 | a node's positive scale diagonal makes `inv(scaling_matrix)` exist, and the reciprocal scale is that inverse |
| Nodes.NewNode | node.py:38-44 | a fresh node has the drawn colour, the unit box centred at the origin, zero offset and unit scale, no selection, and satisfies the node invariant |
| Nodes.FreshMatrices | node.py:42-43 | zero offset and unit scale mean identity translation and scaling matrices |
| Nodes.Translate | node.py:77-80 | `translate` changes only the translation |
| Nodes.TranslateIsProduct | node.py:77-80 | the new translation matrix is the old one times `translation(d)` |
| Nodes.TranslationsAccumulate | node.py:77-80 | after any sequence of translates, the matrix is the translation by the running sum of the deltas, and nothing else about the node changes |
| Nodes.Factor | node.py:84 | the step factor is positive: above 1 when scaling up and below 1 when scaling down |
| Nodes.Rescale | node.py:82-86 | `scale` changes only the scale and the box, scales the box by the same factor, and keeps the scale positive |
| Nodes.RescaleIsProduct | node.py:82-86 | the new scaling matrix is the old one times `scaling([s, s, s])` |
| Nodes.UpThenDown | node.py:82-86 | scaling up and then down multiplies the scale and the box by 0.99, not by 1 |
| Nodes.Pick | node.py:89-99 | `pick` is the slab test against the box mapped by modelview * T * inv(S); for a centred box it equals the source's test; a hit lies in [0, 1e6] |
| Nodes.PickIgnoresState | node.py:89-99 | colour, selection and grab do not affect a pick |
| Nodes.Select | node.py:101-103 | `select(None)` flips the flag, `select(b)` sets it to b, and nothing else changes |
| Nodes.SelectLaws | node.py:101-103 | toggling twice restores the node, setting twice is setting once, and setting the current value changes nothing |
| Nodes.RotateColor | node.py:105-111 | from any index the result lies in the palette; from a palette index the result is one step round the cycle of 8; it wraps at both ends; only the colour changes |
| Nodes.RotateColorCycles | node.py:105-111 | k forward steps from a palette index land at (index + k) mod 8 |
| Nodes.EightStepsRestore | node.py:105-111 | eight forward steps restore the node |
| Nodes.RotateColorInverse | node.py:105-111 | a backward step undoes a forward step, and vice versa |
| Nodes.BallIsBuiltSphere | node.py:143-157 | each child is a fresh sphere translated by (0, dy, 0), with its scaling matrix set to the identity times `scaling([s, s, s])` and its drawn colour overwritten with MIN_COLOR |
| Nodes.SnowFigure | node.py:139-160 | the figure has three spheres at y = -0.6, 0.1 and 0.75, scaled by 1, 0.8 and 0.7 and all coloured MIN_COLOR; it sits inside a box with half-extent (0.5, 1.1, 0.5), with zero offset and unit scale, and keeps the node invariant |
| Nodes.ScalingFigureKeepsChildren | node.py:82-86 | scaling a hierarchical node leaves its children untouched |
| Nodes.OperationsKeepNodeOk | node.py:77-111 | translate, scale, rotate_color and select all keep the node invariant: a palette colour, a positive scale, a centred box |
| Scenes.ValidPickable | node.py:95-98 | in a valid scene every node's scaling matrix can be inverted |
| Scenes.AtMostOneSelected | scene.py:35-54 | in a valid scene at most one node has its flag set, and that node is `selected_node` |
| Scenes.Empty | scene.py:22-24 | a new scene has no nodes and no selection, and is valid |
| Scenes.AddNode | scene.py:27-28 | `add_node` appends the node and keeps the existing nodes and the selection |
| Scenes.AddNodeKeepsValid | scene.py:27-28 | appending an unselected node that satisfies the node invariant keeps the scene valid |
| Scenes.HitsIgnoreState | scene.py:40-46 | clearing or setting selection flags before the loop does not change any node's hit |
| Scenes.HitsBounded | scene.py:44-48 | every hit distance is below `sys.maxsize`, so the scan's first hit always replaces the seed |
| Scenes.NearestIsUnique | scene.py:44-48 | at most one entry is the nearest under the strict-less rule |
| Scenes.Scan | scene.py:44-48 | the loop keeps the smallest hit distance so far and the first index where it occurs, and stays at (maxsize, None) while nothing is hit |
| Scenes.ScanFindsNearest | scene.py:44-48 | over all nodes, the loop selects nothing exactly when nothing is hit, and otherwise the nearest hit, with ties going to the earliest |
| Scenes.Deselect | scene.py:40-42 | the old selection's flag is cleared, the selection becomes None, and nothing else changes |
| Scenes.PickWith | scene.py:35-54 | given each node's hit, the new selection is the nearest hit and carries its depth and hit point; every other node is unchanged apart from the cleared old selection |
| Scenes.PickWithIdempotent | scene.py:35-54 | selecting again from the same hits changes nothing |
| Scenes.Pick | scene.py:35-54 | `pick` selects nothing exactly when no node is hit, and otherwise the nearest node hit |
| Scenes.PickKeepsValid | scene.py:35-54 | `pick` keeps the scene invariant, so exactly the selected node is flagged and it carries a grab |
| Scenes.PickIdempotent | scene.py:35-54 | picking twice with the same ray is picking once |
| Scenes.MoveSelected | scene.py:64-82 | `move_selected` is a no-op without a selection; otherwise only the selected node changes: its offset grows by the drag from the old grab point to the new ray's point at the grabbed depth, mapped to world space by `inv_model` as a direction, and that point becomes the new grab point |
| Scenes.MoveKeepsValid | scene.py:64-82 | moving keeps the scene invariant |
| Scenes.MoveAlongPickRayIsStill | scene.py:64-82 | right after a pick, moving along the same ray leaves the scene unchanged |
| Scenes.MoveIgnoresTranslationColumn | scene.py:79-80 | only the 3x3 block of `inv_model` affects a move |
| Scenes.MoveUnderTranslatedCamera | scene.py:77-81 | under a camera that is only translated, the node moves exactly as far as the grab point |
| Scenes.MovesTelescope | scene.py:64-82 | two consecutive moves end where a single move to the second ray ends |
| Scenes.Build | scene.py:89 | the shape table gives a fresh sphere, cube or snow figure for the three known names, and an error for any other name |
| Scenes.Place | scene.py:84-94 | `place` fails exactly on an unknown shape; otherwise it appends the built node, with its offset moved to `inv_model` applied to the point at depth 15 on the ray, and keeps the selection and the existing nodes |
| Scenes.PlaceTranslation | scene.py:92-94 | the new node's translation matrix is the translation to the place location |
| Scenes.PlaceKeepsValid | scene.py:84-94 | a successful place keeps the scene valid |
| Scenes.RotateSelectedColor | scene.py:56-58 | only the selected node changes, by `rotate_color`; without a selection nothing happens |
| Scenes.ScaleSelected | scene.py:60-62 | only the selected node changes, by `scale`; without a selection nothing happens |
| Scenes.SelectionEditsKeepValid | scene.py:56-62 | both edits of the selection keep the scene invariant |
| Trackballs.QAddIsHamilton | trackball.py:43-49 | `_q_add(q1, q2)` is the Hamilton product q2 q1, and its scalar part is w1 w2 - v1 . v2 |
| Trackballs.QAddIdentity | trackball.py:43-49 | the identity quaternion is a two-sided unit of `_q_add` |
| Trackballs.QMulScalesNorm | trackball.py:50-52 | `_q_mul(q, s)` scales `_q_dot(q, q)` by s squared, and `_q_dot(q, q)` is never negative |
| Trackballs.QAddMultipliesNorms | trackball.py:43-52 | the squared length of `_q_add(q1, q2)` is the product of the squared lengths, so unit rotations compose to a unit rotation |
| Trackballs.RotMatrixAsWritten | trackball.py:61-73 | `_q_rotmatrix` as written: 16 entries, with entries 3, 4, 7 and 11-14 zero and entry 15 one |
| Trackballs.RotMatrix | trackball.py:61-73 | the rotation matrix with entry 4 assigned: 16 entries, the same zero border and a one in the corner |
| Trackballs.RotMatrixDiffersOnlyAtFour | trackball.py:61-73 | the two matrices agree everywhere except entry 4, which the source leaves at 0 |
| Trackballs.RotMatrixOfIdentity | trackball.py:61-73 | both versions map the identity quaternion to the identity matrix |
| Trackballs.RotMatrixIsRotation | trackball.py:61-73 | for a unit quaternion, the three axes of the corrected matrix are orthonormal |
| Trackballs.RotMatrixAsWrittenIsNotRotation | trackball.py:61-73 | for the unit quaternion (0, 0, 0.6, 0.8), the source's second axis is (0, 0.28, 0) and the matrix is not orthonormal |
| Trackballs.NormalizationLaws | trackball.py:100-103 | the left edge, centre and right edge of the viewport map to -1, 0 and 1; the map is invertible; the normalised delta is the difference of the normalised end points, and it is zero exactly when the pixel delta is zero |
| Trackballs.NormalizeMonotone | trackball.py:100-101 | normalisation preserves order on a viewport of positive width |
| Trackballs.RotateComposes | trackball.py:146-148 | the rotation of a zero drag is a unit quaternion that `_q_add` leaves any orientation unchanged with, on either side; the rotation of any other drag composes with an orientation p as the Hamilton product p times the step |
| Trackballs.NewTrackball | trackball.py:78-89 | the initial count is 0; the rotation is the Hamilton product of the z rotation and the x rotation, and reduces to either one when the other is the identity; the matrix is the rotation matrix of that rotation, and `_q_rotmatrix`'s is the same matrix with entry 4 at 0 |
| Trackballs.Tick | trackball.py:108-111 | the counter stays in [0, 97], steps to (count + 1) mod 98, and triggers renormalisation exactly when it passes 97 |
| Trackballs.DragTo | trackball.py:92-113 | the counter advances and resets after 97; the matrix always matches the rotation; a zero drag keeps the rotation, except on a renormalising drag, where it is renormalised |
| Trackballs.DragComposes | trackball.py:104-113 | a non-zero drag makes the rotation the old rotation times the drag's step (the Hamilton product `_q_add(q, rotation)` computes), renormalised on a renormalising drag; the matrix `_q_rotmatrix` builds from it is the model's with entry 4 at 0 |
| Trackballs.CounterCycles | trackball.py:108-111 | across any sequence of drags the counter stays in [0, 97] and equals the number of drags mod 98, so every 98th drag renormalises |

## Left out

- Rendering and windowing are left out because they are I/O: every `render` method, the GL and GLUT calls, viewer.py, interaction.py, primitive.py and modeller.py.
- The transcendental trackball parts are left out: `_v_length`, `_v_normalize`, `_q_length`, `_q_normalize`, `_q_from_axis_angle`, `_project`, and the non-zero branch of `_rotate`. They use square roots, trigonometry and `hypot`, which have no exact counterpart over `real`. In the model:
  - the rotation step of a non-zero drag is the parameter `increment`;
  - the renormaliser is the parameter `normalize`;
  - `_set_orientation`'s two axis rotations are the parameters `xrot` and `zrot`.
- `Trackball.zoom_to` and `pan_to` are left out. The rotation core does not use them, and they only adjust `zoom`, `_x` and `_y`, which nothing here reads. The same goes for `_TRACKBALLSIZE`, `zoom` and `distance`.
- Floating-point rounding is not modelled, because `real` is exact. Three things follow:
  - renormalisation is a no-op on unit quaternions;
  - the `GLfloat * 16` conversion of the matrix is not modelled;
  - the drift that renormalisation exists to correct is not modelled.
- Trackballs.DragTo requires a non-zero viewport width and height. The source divides by them and raises `ZeroDivisionError` otherwise. The viewport query `glGetIntegerv` becomes the parameters `w` and `h`.
- Nodes.Pick requires a scale with no zero entry. In the source, `numpy.linalg.inv` raises on a singular scaling matrix. That case is unreachable: `NodeOk` keeps every scale strictly positive, and `Scenes.ValidPickable` shows it.
- Scenes.MoveSelected requires the selected node to carry a grab. The source reads `depth` and `selected_loc`, which only `pick` sets, and only `pick` selects a node.
- Python truthiness of `selected_node` and `closest` is modelled as `Option`: a node object is always truthy.
- Trackballs.NewTrackball and Trackballs.DragTo store the corrected rotation matrix, with entry 4 assigned, where the source stores `_q_rotmatrix`'s output (trackball.py:113 and 136), whose entry 4 is always 0. The rest of the model uses the corrected conversion. Both members, and `Trackballs.DragComposes`, state that the source's matrix is the stored one with entry 4 set to 0, so the source's value is recoverable from every state. The "## Findings" table records the missing assignment.
- Nodes.Pick runs the slab test with the corrected parallel test, where node.py:99 calls `ray_hit` as written. Its contract also states that for a box centred on its origin the result equals `ray_hit` as written (`Aabb.CentredBoxesAgree`). Every node's box is centred: that is part of `Nodes.NodeOk`, which `NewNode` establishes and `Nodes.OperationsKeepNodeOk` shows every operation keeps. So the two differ only on boxes the program never builds.
- Hamilton-product associativity is not stated. Nothing in the core depends on how three or more drags group.
- The trackball's quaternions are a `Quat` datatype, not 4-element lists, and `_q_rotmatrix` returns a 16-element `seq<real>`.

Details of the code that are easy to misread:
- The rotation is renormalised on every 98th drag, because `_count` must exceed `_RENORMCOUNT` = 97 (trackball.py:109).
- The snow figure's children are coloured `MIN_COLOR`, which is red (color.py:6), not white as the comment at node.py:155 says.
- A singular scale makes `numpy.linalg.inv` raise (node.py:97).

## Findings

| source | as written | input that shows it | evidently intended | confidence | as-written member | corrected member |
|---|---|---|---|---|---|---|
| aabb.py:74-75 | the parallel-slab test compares `-e + minimum[i]` and `-e + maximum[i]` with EPSILON | box centred at (2, 0, 0) with half-extent 0.5, identity transform, ray from (2, 0, 5) along (0, 0, -1): the ray passes through the box, yet `ray_hit` returns (False, 0.0); and for the same box, the ray from (-2, 0, 5) along (0, 0, -1) passes beside it, yet `ray_hit` returns (True, 4.5) | `e + minimum[i] > EPSILON or e + maximum[i] < -EPSILON`, the sign the crossing formulas at lines 64-65 use; no effect in the program, whose boxes are all centred | high (not executed) | Aabb.RayHit, Aabb.OffCentreParallelMiss, Aabb.OffCentreParallelHit | Aabb.RayHitCorrected, Aabb.RayHitIsNearestEntry, Aabb.DownShotHitsTopFace |
| trackball.py:61-73 | entry 4 of the matrix is never assigned and stays 0 | unit quaternion (0, 0, 0.6, 0.8): the second axis is (0, 0.28, 0) instead of (0.96, 0.28, 0), so the matrix is not a rotation | `m[4] = 2*(q[0]*q[1] + q[2]*q[3])` | high (not executed) | Trackballs.RotMatrixAsWritten, Trackballs.RotMatrixAsWrittenIsNotRotation | Trackballs.RotMatrix, Trackballs.RotMatrixIsRotation |

=== FILE: aabb.dfy ===
/**
 The bounding box each node owns, and the slab test that intersects a ray with it.

 A box is a centre and a half-extent in the node's local space. `RayHit` clips
 a running interval [tMin, tMax], seeded at [0, FAR], against the three slabs
 of the box as mapped into ray space by a 4x4 transform; it reports the entry
 distance tMin on a hit and (false, 0) on every miss.
 */
module Aabb {
  import opened Geometry

  /** Tolerance below which a ray counts as parallel to a slab. */
  const EPSILON: real := 0.000001

  /** The seed of tMax: the farthest distance a hit can report. */
  const FAR: real := 1000000.0

  datatype Box = Box(centre: Vec3, size: Vec3)

  /** The `(hit, distance)` pair `ray_hit` returns. */
  datatype Hit = Hit(hit: bool, distance: real)

  const Miss: Hit := Hit(false, 0.0)

  /** Scales the half-extent uniformly; the centre stays where it is. */
  function ScaleBox(b: Box, s: real): (r: Box)
    ensures r.centre == b.centre
    ensures forall i :: 0 <= i < 3 ==> At(r.size, i) == At(b.size, i) * s
  {
    Box(b.centre, Scale(b.size, s))
  }

  /** Scaling twice is scaling once by the product of the factors. */
  lemma ScaleBoxComposes(b: Box, s: real, t: real)
    ensures ScaleBox(ScaleBox(b, s), t) == ScaleBox(b, s * t)
  {
  }

  /** `minimum[i]`: the low face of the box along local axis i. */
  function Lower(b: Box, i: nat): real
    requires i < 3
  {
    At(b.centre, i) - At(b.size, i)
  }

  /** `maximum[i]`: the high face of the box along local axis i. */
  function Upper(b: Box, i: nat): real
    requires i < 3
  {
    At(b.centre, i) + At(b.size, i)
  }

  /** Local axis i of the box in ray space: row i of the transform, first three columns. */
  function Axis(m: Mat4, i: nat): Vec3
    requires i < 3
  {
    Xyz(if i == 0 then m.r0 else if i == 1 then m.r1 else m.r2)
  }

  /** The box origin in ray space: the translation column of the transform. */
  function Origin(m: Mat4): Vec3
  {
    Vec3(m.r0.w, m.r1.w, m.r2.w)
  }

  /** `e`: the vector from the ray origin to the box origin, projected on axis i. */
  function Offset(ray: Ray, m: Mat4, i: nat): real
    requires i < 3
  {
    Dot(Axis(m, i), Sub(Origin(m), ray.origin))
  }

  /** `f`: the ray direction projected on axis i. */
  function Slope(ray: Ray, m: Mat4, i: nat): real
    requires i < 3
  {
    Dot(ray.direction, Axis(m, i))
  }

  function Abs(x: real): real
  {
    if x < 0.0 then -x else x
  }

  function Max(a: real, b: real): real
  {
    if a >= b then a else b
  }

  function Min(a: real, b: real): real
  {
    if a <= b then a else b
  }

  /** A slope this small counts as the ray running parallel to the slab. */
  predicate Flatness(f: real)
  {
    Abs(f) <= EPSILON
  }

  /** The ray runs (nearly) parallel to the slab of axis i. */
  predicate Parallel(ray: Ray, m: Mat4, i: nat)
    requires i < 3
  {
    Flatness(Slope(ray, m, i))
  }

  /** The distance along a ray not parallel to axis i at which it meets the face at `face` on that axis. */
  function Crossing(ray: Ray, m: Mat4, i: nat, face: real): real
    requires i < 3 && !Parallel(ray, m, i)
  {
    (Offset(ray, m, i) + face) / Slope(ray, m, i)
  }

  /** Orders the two slab crossings: the swap when `t1 > t2`. */
  function Order(t1: real, t2: real): (r: (real, real))
    ensures r.0 <= r.1
    ensures r == (t1, t2) || r == (t2, t1)
  {
    if t1 > t2 then (t2, t1) else (t1, t2)
  }

  /**
   Which test rejects a ray parallel to a slab. `AsWritten` is the source's test,
   which compares `-e` with the faces; `Corrected` compares `e`, the sign that
   the crossing formulas use (see the README's findings).
   */
  datatype SlabRule = AsWritten | Corrected

  /** The parallel test for a slab with faces lo and hi at projected offset e. */
  predicate Beyond(rule: SlabRule, lo: real, hi: real, e: real)
  {
    match rule
    case AsWritten => -e + lo > EPSILON || -e + hi < -EPSILON
    case Corrected => e + lo > EPSILON || e + hi < -EPSILON
  }

  /** The parallel ray lies outside slab i, beyond the tolerance. */
  predicate OutsideSlab(rule: SlabRule, b: Box, ray: Ray, m: Mat4, i: nat)
    requires i < 3
  {
    Beyond(rule, Lower(b, i), Upper(b, i), Offset(ray, m, i))
  }

  /**
   What one iteration of the slab loop learns about axis i: either the ray
   crosses the slab, entering at `near` and leaving at `far`, or it runs
   parallel to it and the parallel test says whether it lies `outside`.
   */
  datatype Slab = Crossed(near: real, far: real) | Flat(outside: bool)

  /**
   One iteration of the loop on the projected numbers: faces lo and hi,
   offset e and slope f. A crossed slab spans `(e + lo) / f` to `(e + hi) / f`.
   */
  function SlabFrom(rule: SlabRule, lo: real, hi: real, e: real, f: real): (s: Slab)
    ensures s.Crossed? <==> !Flatness(f)
    ensures s.Crossed? ==> s.near <= s.far
    ensures s.Crossed? ==> (s.near, s.far) == ((e + lo) / f, (e + hi) / f) || (s.near, s.far) == ((e + hi) / f, (e + lo) / f)
    ensures s.Flat? ==> s.outside == Beyond(rule, lo, hi, e)
  {
    if !Flatness(f) then
      var c := Order((e + lo) / f, (e + hi) / f);
      Crossed(c.0, c.1)
    else Flat(Beyond(rule, lo, hi, e))
  }

  function SlabOf(rule: SlabRule, b: Box, ray: Ray, m: Mat4, i: nat): (s: Slab)
    requires i < 3
    ensures s.Crossed? <==> !Parallel(ray, m, i)
    ensures s.Crossed? ==> s.near <= s.far
    ensures s.Crossed? ==>
      var toLower, toUpper := Crossing(ray, m, i, Lower(b, i)), Crossing(ray, m, i, Upper(b, i));
      (s.near, s.far) == (toLower, toUpper) || (s.near, s.far) == (toUpper, toLower)
    ensures s.Flat? ==> s.outside == OutsideSlab(rule, b, ray, m, i)
  {
    SlabFrom(rule, Lower(b, i), Upper(b, i), Offset(ray, m, i), Slope(ray, m, i))
  }

  /** The three slabs of the box, in the order the loop visits them. */
  function Slabs(rule: SlabRule, b: Box, ray: Ray, m: Mat4): (s: seq<Slab>)
    ensures |s| == 3
  {
    [SlabOf(rule, b, ray, m, 0), SlabOf(rule, b, ray, m, 1), SlabOf(rule, b, ray, m, 2)]
  }

  /** Iteration i of the slab loop, with the running interval [tMin, tMax]. */
  function Clip(slabs: seq<Slab>, i: nat, tMin: real, tMax: real): (r: Hit)
    requires i <= |slabs| && tMin <= tMax
    ensures r.hit ==> tMin <= r.distance <= tMax
    ensures !r.hit ==> r == Miss
    decreases |slabs| - i
  {
    if i == |slabs| then Hit(true, tMin)
    else match slabs[i]
      case Crossed(near, far) =>
        var lo := Max(tMin, near);
        var hi := Min(tMax, far);
        if hi < lo then Miss else Clip(slabs, i + 1, lo, hi)
      case Flat(outside) =>
        if outside then Miss else Clip(slabs, i + 1, tMin, tMax)
  }

  function RayHitBy(rule: SlabRule, b: Box, ray: Ray, m: Mat4): (r: Hit)
    ensures r.hit ==> 0.0 <= r.distance <= FAR
    ensures !r.hit ==> r == Miss
  {
    Clip(Slabs(rule, b, ray, m), 0, 0.0, FAR)
  }

  /** `AABB.ray_hit` as the source writes it. */
  function RayHit(b: Box, ray: Ray, m: Mat4): (r: Hit)
    ensures r.hit ==> 0.0 <= r.distance <= FAR
    ensures !r.hit ==> r == Miss
  {
    RayHitBy(AsWritten, b, ray, m)
  }

  /** `AABB.ray_hit` with the parallel-slab test's sign corrected. */
  function RayHitCorrected(b: Box, ray: Ray, m: Mat4): (r: Hit)
    ensures r.hit ==> 0.0 <= r.distance <= FAR
    ensures !r.hit ==> r == Miss
  {
    RayHitBy(Corrected, b, ray, m)
  }

  // ---- what the slab loop computes ------------------------------------------

  /** Ray parameter t lies within the slab (a parallel slab constrains no parameter). */
  predicate Admits(s: Slab, t: real)
  {
    s.Flat? || s.near <= t <= s.far
  }

  predicate AdmitsFrom(slabs: seq<Slab>, i: nat, t: real)
  {
    forall j :: i <= j < |slabs| ==> Admits(slabs[j], t)
  }

  /** No parallel slab from i on rejects the ray. */
  predicate NoneOutsideFrom(slabs: seq<Slab>, i: nat)
  {
    forall j :: i <= j < |slabs| ==> !(slabs[j].Flat? && slabs[j].outside)
  }

  /** Parameter t is within [0, FAR] and inside every slab the ray crosses. */
  predicate Feasible(slabs: seq<Slab>, t: real)
  {
    0.0 <= t <= FAR && AdmitsFrom(slabs, 0, t)
  }

  /**
   From iteration i on, the loop hits exactly when no parallel slab rejects the
   ray and some t in [tMin, tMax] lies in the remaining slabs, and then it
   reports the least such t.
   */
  lemma {:induction false} ClipIsNearest(slabs: seq<Slab>, i: nat, tMin: real, tMax: real)
    requires i <= |slabs| && tMin <= tMax
    ensures var r := Clip(slabs, i, tMin, tMax);
      && (r.hit <==> NoneOutsideFrom(slabs, i) && exists t :: tMin <= t <= tMax && AdmitsFrom(slabs, i, t))
      && (r.hit ==> AdmitsFrom(slabs, i, r.distance))
      && (r.hit ==> forall t :: tMin <= t <= tMax && AdmitsFrom(slabs, i, t) ==> r.distance <= t)
    decreases |slabs| - i
  {
    var r := Clip(slabs, i, tMin, tMax);
    if i == |slabs| {
      assert AdmitsFrom(slabs, i, tMin);
    } else {
      assert NoneOutsideFrom(slabs, i) <==> !(slabs[i].Flat? && slabs[i].outside) && NoneOutsideFrom(slabs, i + 1);
      assert forall t :: AdmitsFrom(slabs, i, t) <==> Admits(slabs[i], t) && AdmitsFrom(slabs, i + 1, t);
      match slabs[i]
      case Crossed(near, far) =>
        var lo := Max(tMin, near);
        var hi := Min(tMax, far);
        assert forall t :: (tMin <= t <= tMax && AdmitsFrom(slabs, i, t)) <==> (lo <= t <= hi && AdmitsFrom(slabs, i + 1, t));
        if lo <= hi {
          ClipIsNearest(slabs, i + 1, lo, hi);
          if NoneOutsideFrom(slabs, i) && exists t :: tMin <= t <= tMax && AdmitsFrom(slabs, i, t) {
            var t :| tMin <= t <= tMax && AdmitsFrom(slabs, i, t);
            assert lo <= t <= hi && AdmitsFrom(slabs, i + 1, t);
          }
          if r.hit {
            assert tMin <= r.distance <= tMax && AdmitsFrom(slabs, i, r.distance);
          }
        }
      case Flat(outside) =>
        if !outside {
          assert forall t :: AdmitsFrom(slabs, i, t) <==> AdmitsFrom(slabs, i + 1, t);
          ClipIsNearest(slabs, i + 1, tMin, tMax);
        }
    }
  }

  /** The loop run from its seed interval [0, FAR] finds the nearest feasible parameter. */
  lemma ScanIsNearest(slabs: seq<Slab>)
    ensures var r := Clip(slabs, 0, 0.0, FAR);
      && (r.hit <==> NoneOutsideFrom(slabs, 0) && exists t :: Feasible(slabs, t))
      && (r.hit ==> Feasible(slabs, r.distance))
      && (r.hit ==> forall t :: Feasible(slabs, t) ==> r.distance <= t)
  {
    ClipIsNearest(slabs, 0, 0.0, FAR);
    var r := Clip(slabs, 0, 0.0, FAR);
    if exists t :: Feasible(slabs, t) {
      var t :| Feasible(slabs, t);
      assert 0.0 <= t <= FAR && AdmitsFrom(slabs, 0, t);
    }
    if r.hit {
      assert Feasible(slabs, r.distance);
    }
  }

  /**
   The slab test reports a hit exactly when no parallel slab rejects the ray
   and some distance in [0, FAR] lies inside all the slabs the ray crosses; the
   distance it reports is then the least such feasible distance.
   */
  lemma RayHitIsNearestEntry(rule: SlabRule, b: Box, ray: Ray, m: Mat4)
    ensures var r, slabs := RayHitBy(rule, b, ray, m), Slabs(rule, b, ray, m);
      && (r.hit <==> NoneOutsideFrom(slabs, 0) && exists t :: Feasible(slabs, t))
      && (r.hit ==> Feasible(slabs, r.distance))
      && (r.hit ==> forall t :: Feasible(slabs, t) ==> r.distance <= t)
  {
    ScanIsNearest(Slabs(rule, b, ray, m));
  }

  /** For a box centred on its own origin the two parallel-slab tests agree. */
  lemma CentredSlabsAgree(b: Box, ray: Ray, m: Mat4)
    requires b.centre == Zero
    ensures Slabs(AsWritten, b, ray, m) == Slabs(Corrected, b, ray, m)
  {
    forall i: nat | i < 3
      ensures SlabOf(AsWritten, b, ray, m, i) == SlabOf(Corrected, b, ray, m, i)
    {
      assert OutsideSlab(AsWritten, b, ray, m, i) == OutsideSlab(Corrected, b, ray, m, i);
    }
  }

  /** Every box the modeller builds is centred, so for them the correction changes nothing. */
  lemma CentredBoxesAgree(b: Box, ray: Ray, m: Mat4)
    requires b.centre == Zero
    ensures RayHit(b, ray, m) == RayHitCorrected(b, ray, m)
  {
    CentredSlabsAgree(b, ray, m);
  }

  // ---- untransformed boxes ----------------------------------------------------

  /** Under the identity transform the projections are plain coordinates. */
  lemma IdentityFrame(ray: Ray)
    ensures Offset(ray, Identity, 0) == -ray.origin.x && Slope(ray, Identity, 0) == ray.direction.x
    ensures Offset(ray, Identity, 1) == -ray.origin.y && Slope(ray, Identity, 1) == ray.direction.y
    ensures Offset(ray, Identity, 2) == -ray.origin.z && Slope(ray, Identity, 2) == ray.direction.z
  {
    assert Sub(Origin(Identity), ray.origin) == Vec3(-ray.origin.x, -ray.origin.y, -ray.origin.z);
  }

  /** Under the identity transform the slabs are computed from plain coordinates. */
  lemma IdentitySlabs(rule: SlabRule, b: Box, ray: Ray)
    ensures Slabs(rule, b, ray, Identity)
         == [SlabFrom(rule, Lower(b, 0), Upper(b, 0), -ray.origin.x, ray.direction.x),
             SlabFrom(rule, Lower(b, 1), Upper(b, 1), -ray.origin.y, ray.direction.y),
             SlabFrom(rule, Lower(b, 2), Upper(b, 2), -ray.origin.z, ray.direction.z)]
  {
    IdentityFrame(ray);
  }

  /** Looking straight down -z from above an untransformed box, within its x and y extent. */
  predicate DownShot(b: Box, ray: Ray)
  {
    && ray.direction == Vec3(0.0, 0.0, -1.0)
    && b.size.z >= 0.0
    && Lower(b, 0) <= ray.origin.x <= Upper(b, 0)
    && Lower(b, 1) <= ray.origin.y <= Upper(b, 1)
    && Upper(b, 2) <= ray.origin.z <= Upper(b, 2) + FAR
  }

  /**
   With the corrected test, such a ray enters the box at its top face: the hit
   distance is the height of the ray origin above that face.
   */
  lemma DownShotHitsTopFace(b: Box, ray: Ray)
    requires DownShot(b, ray)
    ensures RayHitCorrected(b, ray, Identity) == Hit(true, ray.origin.z - Upper(b, 2))
  {
    IdentitySlabs(Corrected, b, ray);
    DownShotClip(Lower(b, 0), Upper(b, 0), ray.origin.x, Lower(b, 1), Upper(b, 1), ray.origin.y,
                 Lower(b, 2), Upper(b, 2), ray.origin.z);
  }

  /** The down shot on plain numbers: faces lo/hi per axis, ray origin (x, y, z). */
  lemma DownShotClip(lo0: real, hi0: real, x: real, lo1: real, hi1: real, y: real,
                     lo2: real, hi2: real, z: real)
    requires lo0 <= x <= hi0 && lo1 <= y <= hi1 && lo2 <= hi2 <= z <= hi2 + FAR
    ensures Clip([SlabFrom(Corrected, lo0, hi0, -x, 0.0), SlabFrom(Corrected, lo1, hi1, -y, 0.0),
                  SlabFrom(Corrected, lo2, hi2, -z, -1.0)], 0, 0.0, FAR)
         == Hit(true, z - hi2)
  {
    var slabs := [SlabFrom(Corrected, lo0, hi0, -x, 0.0), SlabFrom(Corrected, lo1, hi1, -y, 0.0),
                  SlabFrom(Corrected, lo2, hi2, -z, -1.0)];
    assert slabs[0] == Flat(false) && slabs[1] == Flat(false);
    assert slabs[2] == Crossed(z - hi2, z - lo2);
    assert Clip(slabs, 0, 0.0, FAR) == Clip(slabs, 1, 0.0, FAR) == Clip(slabs, 2, 0.0, FAR);
    assert Clip(slabs, 2, 0.0, FAR) == Clip(slabs, 3, z - hi2, Min(FAR, z - lo2));
  }

  /** The same for the source's test, on a centred box. */
  lemma CentredDownShotHitsTopFace(b: Box, ray: Ray)
    requires b.centre == Zero && DownShot(b, ray)
    ensures RayHit(b, ray, Identity) == Hit(true, ray.origin.z - b.size.z)
  {
    CentredBoxesAgree(b, ray, Identity);
    DownShotHitsTopFace(b, ray);
  }

  /**
   A run of slabs of which one is crossed from `near` to `far`, with near in
   [0, FAR], and every other is parallel and not outside: the loop reports near.
   */
  lemma OneCrossedSlab(slabs: seq<Slab>, k: nat, near: real, far: real)
    requires k < |slabs| && slabs[k] == Crossed(near, far)
    requires 0.0 <= near <= far && near <= FAR
    requires forall j :: 0 <= j < |slabs| && j != k ==> slabs[j] == Flat(false)
    ensures Clip(slabs, 0, 0.0, FAR) == Hit(true, near)
  {
    ScanIsNearest(slabs);
    assert Feasible(slabs, near);
  }

  /** The unit direction along world axis k, towards +k when `up` and towards -k otherwise. */
  function AxisDirection(k: nat, up: bool): Vec3
    requires k < 3
  {
    var s := if up then 1.0 else -1.0;
    if k == 0 then Vec3(s, 0.0, 0.0) else if k == 1 then Vec3(0.0, s, 0.0) else Vec3(0.0, 0.0, s)
  }

  /**
   Aimed at an untransformed box along world axis k: inside its extent on the
   two other axes, in front of the face it looks at, and at most FAR from it.
   */
  predicate AxisShot(b: Box, ray: Ray, k: nat, up: bool)
    requires k < 3
  {
    && ray.direction == AxisDirection(k, up)
    && At(b.size, k) >= 0.0
    && (forall j: nat :: j < 3 && j != k ==> Lower(b, j) <= At(ray.origin, j) <= Upper(b, j))
    && (if up then Lower(b, k) - FAR <= At(ray.origin, k) <= Lower(b, k)
        else Upper(b, k) <= At(ray.origin, k) <= Upper(b, k) + FAR)
  }

  /** The distance from the ray origin to the face of the box it looks at along axis k. */
  function NearFaceDistance(b: Box, ray: Ray, k: nat, up: bool): real
    requires k < 3
  {
    if up then Lower(b, k) - At(ray.origin, k) else At(ray.origin, k) - Upper(b, k)
  }

  /** The distance from the ray origin to the opposite face, where it leaves the box. */
  function FarFaceDistance(b: Box, ray: Ray, k: nat, up: bool): real
    requires k < 3
  {
    if up then Upper(b, k) - At(ray.origin, k) else At(ray.origin, k) - Lower(b, k)
  }

  /**
   With the corrected test, a ray aimed at an untransformed box along any of
   the six axis directions hits it at the distance to the face it looks at.
   */
  lemma AxisShotHitsNearFace(b: Box, ray: Ray, k: nat, up: bool)
    requires k < 3 && AxisShot(b, ray, k, up)
    ensures RayHitCorrected(b, ray, Identity) == Hit(true, NearFaceDistance(b, ray, k, up))
  {
    AxisShotSlabs(b, ray, k, up);
    AxisShotFaces(b, ray, k, up);
    ThreeSlabsOneCrossed(SlabOf(Corrected, b, ray, Identity, 0), SlabOf(Corrected, b, ray, Identity, 1),
                         SlabOf(Corrected, b, ray, Identity, 2), k,
                         NearFaceDistance(b, ray, k, up), FarFaceDistance(b, ray, k, up));
  }

  /** The three slabs of an axis shot: only the shot's own axis is crossed. */
  lemma AxisShotSlabs(b: Box, ray: Ray, k: nat, up: bool)
    requires k < 3 && AxisShot(b, ray, k, up)
    ensures SlabOf(Corrected, b, ray, Identity, 0)
         == if k != 0 then Flat(false) else Crossed(NearFaceDistance(b, ray, k, up), FarFaceDistance(b, ray, k, up))
    ensures SlabOf(Corrected, b, ray, Identity, 1)
         == if k != 1 then Flat(false) else Crossed(NearFaceDistance(b, ray, k, up), FarFaceDistance(b, ray, k, up))
    ensures SlabOf(Corrected, b, ray, Identity, 2)
         == if k != 2 then Flat(false) else Crossed(NearFaceDistance(b, ray, k, up), FarFaceDistance(b, ray, k, up))
  {
    IdentitySlab(Corrected, b, ray, 0);
    AxisShotSlab(b, ray, k, up, 0);
    IdentitySlab(Corrected, b, ray, 1);
    AxisShotSlab(b, ray, k, up, 1);
    IdentitySlab(Corrected, b, ray, 2);
    AxisShotSlab(b, ray, k, up, 2);
  }

  /** The face an axis shot looks at is within [0, FAR] of its origin, and before the far face. */
  lemma AxisShotFaces(b: Box, ray: Ray, k: nat, up: bool)
    requires k < 3 && AxisShot(b, ray, k, up)
    ensures 0.0 <= NearFaceDistance(b, ray, k, up) <= FarFaceDistance(b, ray, k, up)
    ensures NearFaceDistance(b, ray, k, up) <= FAR
  {
  }

  /** Three slabs of which only slab k is crossed, from near in [0, FAR]: the loop reports near. */
  lemma ThreeSlabsOneCrossed(s0: Slab, s1: Slab, s2: Slab, k: nat, near: real, far: real)
    requires k < 3 && 0.0 <= near <= far && near <= FAR
    requires s0 == if k != 0 then Flat(false) else Crossed(near, far)
    requires s1 == if k != 1 then Flat(false) else Crossed(near, far)
    requires s2 == if k != 2 then Flat(false) else Crossed(near, far)
    ensures Clip([s0, s1, s2], 0, 0.0, FAR) == Hit(true, near)
  {
    OneCrossedSlab([s0, s1, s2], k, near, far);
  }

  /**
   Axis j of an axis shot, on plain coordinates: crossed from the near face to
   the far face when j is the shot's axis, parallel and passed otherwise.
   */
  lemma AxisShotSlab(b: Box, ray: Ray, k: nat, up: bool, j: nat)
    requires k < 3 && j < 3 && AxisShot(b, ray, k, up)
    ensures SlabFrom(Corrected, Lower(b, j), Upper(b, j), -At(ray.origin, j), At(ray.direction, j))
         == if j != k then Flat(false) else Crossed(NearFaceDistance(b, ray, k, up), FarFaceDistance(b, ray, k, up))
  {
    var lo, hi, x := Lower(b, j), Upper(b, j), At(ray.origin, j);
    if j != k {
      assert At(ray.direction, j) == 0.0;
      ParallelWithin(lo, hi, x);
    } else if up {
      assert At(ray.direction, j) == 1.0;
      ForwardCrossing(Corrected, lo, hi, x);
    } else {
      assert At(ray.direction, j) == -1.0;
      BackwardCrossing(Corrected, lo, hi, x);
    }
  }

  /** Under the identity transform slab j comes from the plain coordinates of axis j. */
  lemma IdentitySlab(rule: SlabRule, b: Box, ray: Ray, j: nat)
    requires j < 3
    ensures SlabOf(rule, b, ray, Identity, j)
         == SlabFrom(rule, Lower(b, j), Upper(b, j), -At(ray.origin, j), At(ray.direction, j))
  {
    assert Offset(ray, Identity, j) == -At(ray.origin, j);
    assert Slope(ray, Identity, j) == At(ray.direction, j);
  }

  /** A parallel ray between the faces passes the corrected parallel test. */
  lemma ParallelWithin(lo: real, hi: real, x: real)
    requires lo <= x <= hi
    ensures SlabFrom(Corrected, lo, hi, -x, 0.0) == Flat(false)
  {
  }

  /** A ray along +1 from x at or before both faces enters at lo - x and leaves at hi - x. */
  lemma ForwardCrossing(rule: SlabRule, lo: real, hi: real, x: real)
    requires x <= lo <= hi
    ensures SlabFrom(rule, lo, hi, -x, 1.0) == Crossed(lo - x, hi - x)
  {
  }

  /** A ray along -1 from x at or beyond both faces enters at x - hi and leaves at x - lo. */
  lemma BackwardCrossing(rule: SlabRule, lo: real, hi: real, x: real)
    requires lo <= hi <= x
    ensures SlabFrom(rule, lo, hi, -x, -1.0) == Crossed(x - hi, x - lo)
  {
  }

  /** The same for the source's test, on a centred box. */
  lemma CentredAxisShotHitsNearFace(b: Box, ray: Ray, k: nat, up: bool)
    requires k < 3 && b.centre == Zero && AxisShot(b, ray, k, up)
    ensures RayHit(b, ray, Identity) == Hit(true, NearFaceDistance(b, ray, k, up))
  {
    CentredBoxesAgree(b, ray, Identity);
    AxisShotHitsNearFace(b, ray, k, up);
  }

  /** A unit box at the origin, seen along -z from z = 5, is entered at distance 4.5. */
  lemma UnitBoxAlongMinusZ()
    ensures RayHit(Box(Zero, Vec3(0.5, 0.5, 0.5)), Ray(Vec3(0.0, 0.0, 5.0), Vec3(0.0, 0.0, -1.0)), Identity)
         == Hit(true, 4.5)
  {
    CentredDownShotHitsTopFace(Box(Zero, Vec3(0.5, 0.5, 0.5)), Ray(Vec3(0.0, 0.0, 5.0), Vec3(0.0, 0.0, -1.0)));
  }

  /** Dividing numbers of opposite sign by the same non-zero slope puts zero between them. */
  lemma StraddleZero(a: real, c: real, f: real)
    requires a < 0.0 < c && f != 0.0
    ensures Order(a / f, c / f).0 <= 0.0 <= Order(a / f, c / f).1
  {
    if f > 0.0 {
      assert a / f < 0.0 < c / f;
    } else {
      assert c / f < 0.0 < a / f;
    }
  }

  /** The point lies strictly between the faces of the box, in the box's own frame. */
  predicate StrictlyInside(b: Box, p: Vec3)
  {
    forall i: nat :: i < 3 ==> Lower(b, i) < At(p, i) < Upper(b, i)
  }

  /**
   With the corrected test, a ray that starts strictly inside an untransformed
   box hits it at distance 0, whatever the box's centre and the ray's direction.
   */
  lemma InsideHitsAtZero(b: Box, ray: Ray)
    requires StrictlyInside(b, ray.origin)
    ensures RayHitCorrected(b, ray, Identity) == Hit(true, 0.0)
  {
    IdentityFrame(ray);
    var slabs := Slabs(Corrected, b, ray, Identity);
    forall i: nat | i < 3
      ensures Admits(slabs[i], 0.0) && !(slabs[i].Flat? && slabs[i].outside)
    {
      assert Offset(ray, Identity, i) == -At(ray.origin, i);
      if !Parallel(ray, Identity, i) {
        var e, f := Offset(ray, Identity, i), Slope(ray, Identity, i);
        StraddleZero(e + Lower(b, i), e + Upper(b, i), f);
      }
    }
    assert Feasible(slabs, 0.0);
    RayHitIsNearestEntry(Corrected, b, ray, Identity);
  }

  /** The same for the source's test, on the centred boxes the modeller uses. */
  lemma InsideCentredHitsAtZero(b: Box, ray: Ray)
    requires b.centre == Zero && StrictlyInside(b, ray.origin)
    ensures RayHit(b, ray, Identity) == Hit(true, 0.0)
  {
    CentredBoxesAgree(b, ray, Identity);
    InsideHitsAtZero(b, ray);
  }

  /**
   The source's parallel test rejects a ray that runs along -z through the
   middle of an untransformed box whose centre lies more than
   (half-extent + EPSILON) / 2 on the +x side of the origin.
   */
  lemma OffCentreDownShotRejected(b: Box, ray: Ray)
    requires DownShot(b, ray)
    requires ray.origin.x == b.centre.x && 2.0 * b.centre.x > b.size.x + EPSILON
    ensures RayHit(b, ray, Identity) == Miss
  {
    IdentitySlabs(AsWritten, b, ray);
    assert Beyond(AsWritten, Lower(b, 0), Upper(b, 0), -ray.origin.x);
  }

  /**
   A box centred at (2, 0, 0) with half-extent 0.5, and the ray from (2, 0, 5)
   along -z, which passes through it: the source's test misses, the corrected
   test enters the box at distance 4.5.
   */
  lemma OffCentreParallelMiss()
    ensures RayHit(Box(Vec3(2.0, 0.0, 0.0), Vec3(0.5, 0.5, 0.5)), Ray(Vec3(2.0, 0.0, 5.0), Vec3(0.0, 0.0, -1.0)), Identity)
         == Miss
    ensures RayHitCorrected(Box(Vec3(2.0, 0.0, 0.0), Vec3(0.5, 0.5, 0.5)), Ray(Vec3(2.0, 0.0, 5.0), Vec3(0.0, 0.0, -1.0)), Identity)
         == Hit(true, 4.5)
  {
    assert Upper(Box(Vec3(2.0, 0.0, 0.0), Vec3(0.5, 0.5, 0.5)), 2) == 0.5;
    OffCentreDownShotRejected(Box(Vec3(2.0, 0.0, 0.0), Vec3(0.5, 0.5, 0.5)), Ray(Vec3(2.0, 0.0, 5.0), Vec3(0.0, 0.0, -1.0)));
    DownShotHitsTopFace(Box(Vec3(2.0, 0.0, 0.0), Vec3(0.5, 0.5, 0.5)), Ray(Vec3(2.0, 0.0, 5.0), Vec3(0.0, 0.0, -1.0)));
  }

  /**
   The other half of the same defect: the same box, and the ray from (-2, 0, 5)
   along -z, which stays at x = -2, outside the box's x extent [1.5, 2.5]. The
   source's test hits at 4.5; the corrected test misses.
   */
  lemma OffCentreParallelHit()
    ensures forall t :: !(Lower(Box(Vec3(2.0, 0.0, 0.0), Vec3(0.5, 0.5, 0.5)), 0)
                          <= PointAt(Ray(Vec3(-2.0, 0.0, 5.0), Vec3(0.0, 0.0, -1.0)), t).x
                          <= Upper(Box(Vec3(2.0, 0.0, 0.0), Vec3(0.5, 0.5, 0.5)), 0))
    ensures RayHit(Box(Vec3(2.0, 0.0, 0.0), Vec3(0.5, 0.5, 0.5)), Ray(Vec3(-2.0, 0.0, 5.0), Vec3(0.0, 0.0, -1.0)), Identity)
         == Hit(true, 4.5)
    ensures RayHitCorrected(Box(Vec3(2.0, 0.0, 0.0), Vec3(0.5, 0.5, 0.5)), Ray(Vec3(-2.0, 0.0, 5.0), Vec3(0.0, 0.0, -1.0)), Identity)
         == Miss
  {
    OffCentreRayBeside();
    OffCentreMirroredHit();
  }

  /** The ray of `OffCentreParallelHit` stays at x = -2, outside the box's x extent [1.5, 2.5]. */
  lemma OffCentreRayBeside()
    ensures forall t :: !(Lower(Box(Vec3(2.0, 0.0, 0.0), Vec3(0.5, 0.5, 0.5)), 0)
                          <= PointAt(Ray(Vec3(-2.0, 0.0, 5.0), Vec3(0.0, 0.0, -1.0)), t).x
                          <= Upper(Box(Vec3(2.0, 0.0, 0.0), Vec3(0.5, 0.5, 0.5)), 0))
  {
  }

  /** The two tests on the box and ray of `OffCentreParallelHit`. */
  lemma OffCentreMirroredHit()
    ensures RayHit(Box(Vec3(2.0, 0.0, 0.0), Vec3(0.5, 0.5, 0.5)), Ray(Vec3(-2.0, 0.0, 5.0), Vec3(0.0, 0.0, -1.0)), Identity)
         == Hit(true, 4.5)
    ensures RayHitCorrected(Box(Vec3(2.0, 0.0, 0.0), Vec3(0.5, 0.5, 0.5)), Ray(Vec3(-2.0, 0.0, 5.0), Vec3(0.0, 0.0, -1.0)), Identity)
         == Miss
  {
    assert Upper(Box(Vec3(2.0, 0.0, 0.0), Vec3(0.5, 0.5, 0.5)), 2) == 0.5;
    MirroredDownShotAccepted(Box(Vec3(2.0, 0.0, 0.0), Vec3(0.5, 0.5, 0.5)), Ray(Vec3(-2.0, 0.0, 5.0), Vec3(0.0, 0.0, -1.0)));
  }

  /**
   The source's parallel test lets through a ray along -z above an
   untransformed box whose x and y lie in the mirror images of the box's x and
   y extents through the origin (widened by EPSILON): it reports the height
   above the top face, wherever the box itself lies. The corrected test misses such a ray whenever its
   x lies outside the box's own x extent (widened by EPSILON).
   */
  lemma MirroredDownShotAccepted(b: Box, ray: Ray)
    requires ray.direction == Vec3(0.0, 0.0, -1.0) && b.size.z >= 0.0
    requires -Upper(b, 1) - EPSILON <= ray.origin.y <= -Lower(b, 1) + EPSILON
    requires Upper(b, 2) <= ray.origin.z <= Upper(b, 2) + FAR
    requires -Upper(b, 0) - EPSILON <= ray.origin.x <= -Lower(b, 0) + EPSILON
    ensures RayHit(b, ray, Identity) == Hit(true, ray.origin.z - Upper(b, 2))
    ensures !(Lower(b, 0) - EPSILON <= ray.origin.x <= Upper(b, 0) + EPSILON) ==> RayHitCorrected(b, ray, Identity) == Miss
  {
    IdentitySlab(AsWritten, b, ray, 0);
    IdentitySlab(AsWritten, b, ray, 1);
    IdentitySlab(AsWritten, b, ray, 2);
    IdentitySlab(Corrected, b, ray, 0);
    MirroredSlabs(Lower(b, 0), Upper(b, 0), ray.origin.x, Lower(b, 1), Upper(b, 1), ray.origin.y,
                  Lower(b, 2), Upper(b, 2), ray.origin.z);
    ThreeSlabsOneCrossed(SlabOf(AsWritten, b, ray, Identity, 0), SlabOf(AsWritten, b, ray, Identity, 1),
                         SlabOf(AsWritten, b, ray, Identity, 2), 2,
                         ray.origin.z - Upper(b, 2), ray.origin.z - Lower(b, 2));
    if !(Lower(b, 0) - EPSILON <= ray.origin.x <= Upper(b, 0) + EPSILON) {
      assert Slabs(Corrected, b, ray, Identity)[0] == Flat(true);
    }
  }

  /** The slabs behind `MirroredDownShotAccepted`, on plain coordinates: faces lo/hi per axis, ray origin (x, y, z). */
  lemma MirroredSlabs(lo0: real, hi0: real, x: real, lo1: real, hi1: real, y: real, lo2: real, hi2: real, z: real)
    requires -hi0 - EPSILON <= x <= -lo0 + EPSILON && -hi1 - EPSILON <= y <= -lo1 + EPSILON
    requires lo2 <= hi2 <= z
    ensures SlabFrom(AsWritten, lo0, hi0, -x, 0.0) == Flat(false)
    ensures SlabFrom(AsWritten, lo1, hi1, -y, 0.0) == Flat(false)
    ensures SlabFrom(AsWritten, lo2, hi2, -z, -1.0) == Crossed(z - hi2, z - lo2)
    ensures SlabFrom(Corrected, lo0, hi0, -x, 0.0) == Flat(!(lo0 - EPSILON <= x <= hi0 + EPSILON))
  {
    MirroredParallel(lo0, hi0, x);
    MirroredParallel(lo1, hi1, y);
    BackwardCrossing(AsWritten, lo2, hi2, z);
    CorrectedParallel(lo0, hi0, x);
  }

  /** The source's parallel test passes a parallel ray whose coordinate is in the mirror image of the faces. */
  lemma MirroredParallel(lo: real, hi: real, x: real)
    requires -hi - EPSILON <= x <= -lo + EPSILON
    ensures SlabFrom(AsWritten, lo, hi, -x, 0.0) == Flat(false)
  {
  }

  /** The corrected parallel test rejects a parallel ray exactly when it lies outside the faces, widened by EPSILON. */
  lemma CorrectedParallel(lo: real, hi: real, x: real)
    ensures SlabFrom(Corrected, lo, hi, -x, 0.0) == Flat(!(lo - EPSILON <= x <= hi + EPSILON))
  {
  }



}

=== FILE: color.dfy ===
/** The fixed eight-entry palette that node colour indices point into. */
module Color {

  /** An RGB triple with components in [0, 1]. */
  datatype Rgb = Rgb(r: real, g: real, b: real)

  const COLORS: seq<Rgb> := [
    Rgb(1.0, 0.0, 0.0),   // red
    Rgb(0.0, 1.0, 0.0),   // green
    Rgb(0.0, 0.0, 1.0),   // blue
    Rgb(1.0, 1.0, 0.0),   // yellow
    Rgb(1.0, 0.0, 1.0),   // magenta
    Rgb(0.0, 1.0, 1.0),   // cyan
    Rgb(1.0, 0.5, 0.0),   // orange
    Rgb(1.0, 1.0, 1.0)    // white
  ]

  const MIN_COLOR: int := 0
  const MAX_COLOR: int := |COLORS| - 1

  /** The number of palette entries, the period of colour cycling. */
  const PALETTE_SIZE: int := |COLORS|

  predicate InPalette(i: int)
  {
    MIN_COLOR <= i <= MAX_COLOR
  }

  predicate UnitComponents(c: Rgb)
  {
    0.0 <= c.r <= 1.0 && 0.0 <= c.g <= 1.0 && 0.0 <= c.b <= 1.0
  }

  /** The colour a renderer draws for index `i` (`COLORS[color_index]`). */
  function ColorOf(i: int): (c: Rgb)
    requires InPalette(i)
    ensures UnitComponents(c)
    ensures c in COLORS
  {
    COLORS[i]
  }

  /**
   The palette has eight entries indexed 0 to 7, and its first entry, the
   one a snow figure's children receive, is red rather than white.
   */
  lemma PaletteShape()
    ensures |COLORS| == 8 && MIN_COLOR == 0 && MAX_COLOR == 7
    ensures ColorOf(MIN_COLOR) == Rgb(1.0, 0.0, 0.0)
    ensures ColorOf(MAX_COLOR) == Rgb(1.0, 1.0, 1.0)
    ensures forall i :: 0 <= i < |COLORS| ==> UnitComponents(COLORS[i])
  {
  }
}

=== FILE: geometry.dfy ===
/**
 Vectors, 4x4 matrices and rays over the reals.

 The modeller keeps points as 3-vectors, homogeneous vectors as 4-vectors and
 transforms as row-major 4x4 matrices (numpy arrays in node.py and scene.py;
 plain lists in the trackball helpers). Floats are modelled by `real`.
 */
module Geometry {

  datatype Vec3 = Vec3(x: real, y: real, z: real)
  datatype Vec4 = Vec4(x: real, y: real, z: real, w: real)

  /** A row-major 4x4 matrix: `r0` is row 0, and `r0.w` is entry [0, 3]. */
  datatype Mat4 = Mat4(r0: Vec4, r1: Vec4, r2: Vec4, r3: Vec4)

  /** A ray `origin + t * direction`, as produced by the camera ray builder. */
  datatype Ray = Ray(origin: Vec3, direction: Vec3)

  const Zero: Vec3 := Vec3(0.0, 0.0, 0.0)

  /** Component `i` of a 3-vector, as `v[i]` in the source. */
  function At(v: Vec3, i: nat): real
    requires i < 3
  {
    if i == 0 then v.x else if i == 1 then v.y else v.z
  }

  // ---- the trackball's _v_add, _v_sub, _v_mul, _v_dot, _v_cross ------------

  function Add(a: Vec3, b: Vec3): Vec3
  {
    Vec3(a.x + b.x, a.y + b.y, a.z + b.z)
  }

  function Sub(a: Vec3, b: Vec3): (r: Vec3)
    ensures Add(r, b) == a
  {
    Vec3(a.x - b.x, a.y - b.y, a.z - b.z)
  }

  function Scale(v: Vec3, s: real): Vec3
  {
    Vec3(v.x * s, v.y * s, v.z * s)
  }

  function Dot(a: Vec3, b: Vec3): real
  {
    a.x * b.x + a.y * b.y + a.z * b.z
  }

  function Cross(a: Vec3, b: Vec3): Vec3
  {
    Vec3(a.y * b.z - a.z * b.y,
         a.z * b.x - a.x * b.z,
         a.x * b.y - a.y * b.x)
  }

  /** The cross product is orthogonal to both factors. */
  lemma CrossOrthogonal(a: Vec3, b: Vec3)
    ensures Dot(Cross(a, b), a) == 0.0 && Dot(Cross(a, b), b) == 0.0
  {
  }

  /** The cross product of a vector with itself is the zero vector. */
  lemma CrossSelf(v: Vec3)
    ensures Cross(v, v) == Zero
  {
  }

  /** The cross product is anti-commutative. */
  lemma CrossAnticommutes(a: Vec3, b: Vec3)
    ensures Cross(a, b) == Scale(Cross(b, a), -1.0)
  {
  }

  /** The point of parameter `t` on a ray: `origin + direction * t`. */
  function PointAt(ray: Ray, t: real): (p: Vec3)
    ensures Sub(p, ray.origin) == Scale(ray.direction, t)
  {
    Add(ray.origin, Scale(ray.direction, t))
  }

  // ---- homogeneous coordinates ---------------------------------------------

  /** A point in homogeneous coordinates (w = 1): translations move it. */
  function AsPoint(v: Vec3): Vec4 { Vec4(v.x, v.y, v.z, 1.0) }

  /** A displacement in homogeneous coordinates (w = 0): translations do not move it. */
  function AsDisplacement(v: Vec3): Vec4 { Vec4(v.x, v.y, v.z, 0.0) }

  /** The first three components, as `v[:3]` in the source. */
  function Xyz(v: Vec4): Vec3 { Vec3(v.x, v.y, v.z) }

  function Dot4(a: Vec4, b: Vec4): real
  {
    a.x * b.x + a.y * b.y + a.z * b.z + a.w * b.w
  }

  function Col(m: Mat4, j: nat): Vec4
    requires j < 4
  {
    if j == 0 then Vec4(m.r0.x, m.r1.x, m.r2.x, m.r3.x)
    else if j == 1 then Vec4(m.r0.y, m.r1.y, m.r2.y, m.r3.y)
    else if j == 2 then Vec4(m.r0.z, m.r1.z, m.r2.z, m.r3.z)
    else Vec4(m.r0.w, m.r1.w, m.r2.w, m.r3.w)
  }

  /** Matrix times column vector, as `m.dot(v)` in numpy. */
  function Apply(m: Mat4, v: Vec4): Vec4
  {
    Vec4(Dot4(m.r0, v), Dot4(m.r1, v), Dot4(m.r2, v), Dot4(m.r3, v))
  }

  /** Row vector times matrix. */
  function RowTimes(r: Vec4, b: Mat4): Vec4
  {
    Vec4(Dot4(r, Col(b, 0)), Dot4(r, Col(b, 1)), Dot4(r, Col(b, 2)), Dot4(r, Col(b, 3)))
  }

  /** The matrix product `a . b`, as `numpy.dot(a, b)`. */
  function Mul(a: Mat4, b: Mat4): Mat4
  {
    Mat4(RowTimes(a.r0, b), RowTimes(a.r1, b), RowTimes(a.r2, b), RowTimes(a.r3, b))
  }

  const Identity: Mat4 :=
    Mat4(Vec4(1.0, 0.0, 0.0, 0.0),
         Vec4(0.0, 1.0, 0.0, 0.0),
         Vec4(0.0, 0.0, 1.0, 0.0),
         Vec4(0.0, 0.0, 0.0, 1.0))

  /** The linear part of a transform: its upper-left 3x3 block. */
  predicate SameLinearPart(a: Mat4, b: Mat4)
  {
    && Xyz(a.r0) == Xyz(b.r0)
    && Xyz(a.r1) == Xyz(b.r1)
    && Xyz(a.r2) == Xyz(b.r2)
  }

  /**
   A displacement (w = 0) is mapped by the linear part of a transform only:
   the translation column and the last row play no part in its first three components.
   */
  lemma DisplacementIgnoresTranslation(a: Mat4, b: Mat4, v: Vec3)
    requires SameLinearPart(a, b)
    ensures Xyz(Apply(a, AsDisplacement(v))) == Xyz(Apply(b, AsDisplacement(v)))
  {
  }

  /** Transforming displacements is additive. */
  lemma DisplacementAdditive(m: Mat4, u: Vec3, v: Vec3)
    ensures Xyz(Apply(m, AsDisplacement(Add(u, v))))
         == Add(Xyz(Apply(m, AsDisplacement(u))), Xyz(Apply(m, AsDisplacement(v))))
  {
  }

  // ---- node.py's translation() and scaling() -------------------------------

  /** The pure translation by `t` (node.py `translation`). */
  function Translation(t: Vec3): Mat4
  {
    Mat4(Vec4(1.0, 0.0, 0.0, t.x),
         Vec4(0.0, 1.0, 0.0, t.y),
         Vec4(0.0, 0.0, 1.0, t.z),
         Vec4(0.0, 0.0, 0.0, 1.0))
  }

  /** The component-wise product of two 3-vectors. */
  function Hadamard(a: Vec3, b: Vec3): Vec3
  {
    Vec3(a.x * b.x, a.y * b.y, a.z * b.z)
  }

  /** The diagonal scale by `s` (node.py `scaling`). */
  function Scaling(s: Vec3): Mat4
  {
    Mat4(Vec4(s.x, 0.0, 0.0, 0.0),
         Vec4(0.0, s.y, 0.0, 0.0),
         Vec4(0.0, 0.0, s.z, 0.0),
         Vec4(0.0, 0.0, 0.0, 1.0))
  }

  /** A translation moves points by `t` and leaves displacements alone. */
  lemma TranslationActs(t: Vec3, v: Vec3)
    ensures Xyz(Apply(Translation(t), AsPoint(v))) == Add(v, t)
    ensures Apply(Translation(t), AsDisplacement(v)) == AsDisplacement(v)
  {
  }

  /** A diagonal scale multiplies each coordinate of a point by its entry. */
  lemma ScalingActs(s: Vec3, v: Vec3)
    ensures Apply(Scaling(s), AsPoint(v)) == AsPoint(Hadamard(s, v))
  {
  }

  lemma TranslationOfZero()
    ensures Translation(Zero) == Identity
  {
  }

  lemma ScalingOfOnes()
    ensures Scaling(Vec3(1.0, 1.0, 1.0)) == Identity
  {
  }

  /** Post-multiplying one pure translation by another is the translation by the sum. */
  lemma TranslationsCompose(a: Vec3, b: Vec3)
    ensures Mul(Translation(a), Translation(b)) == Translation(Add(a, b))
  {
    var ta, tb := Translation(a), Translation(b);
    assert RowTimes(ta.r0, tb) == Vec4(1.0, 0.0, 0.0, b.x + a.x);
    assert RowTimes(ta.r1, tb) == Vec4(0.0, 1.0, 0.0, b.y + a.y);
    assert RowTimes(ta.r2, tb) == Vec4(0.0, 0.0, 1.0, b.z + a.z);
    assert RowTimes(ta.r3, tb) == Vec4(0.0, 0.0, 0.0, 1.0);
  }

  /** Post-multiplying one diagonal scale by another multiplies the diagonals. */
  lemma ScalingsCompose(a: Vec3, b: Vec3)
    ensures Mul(Scaling(a), Scaling(b)) == Scaling(Hadamard(a, b))
  {
  }

  predicate NonSingular(s: Vec3)
  {
    s.x != 0.0 && s.y != 0.0 && s.z != 0.0
  }

  predicate Positive(s: Vec3)
  {
    s.x > 0.0 && s.y > 0.0 && s.z > 0.0
  }

  /** The component-wise reciprocal of a diagonal with no zero entry. */
  function Reciprocal(s: Vec3): (r: Vec3)
    requires NonSingular(s)
    ensures Hadamard(s, r) == Vec3(1.0, 1.0, 1.0)
  {
    Vec3(1.0 / s.x, 1.0 / s.y, 1.0 / s.z)
  }

  /**
   The scale by the reciprocal diagonal is the two-sided inverse of the scale,
   so it is what `numpy.linalg.inv` returns for a non-singular scaling matrix.
   */
  lemma ReciprocalInvertsScaling(s: Vec3)
    requires NonSingular(s)
    ensures Mul(Scaling(s), Scaling(Reciprocal(s))) == Identity
    ensures Mul(Scaling(Reciprocal(s)), Scaling(s)) == Identity
  {
    ScalingsCompose(s, Reciprocal(s));
    ScalingsCompose(Reciprocal(s), s);
  }
}

=== FILE: nodes.dfy ===
/**
 The nodes of the scene: a shape, a colour index, a bounding box, and the two
 transforms `translation_matrix` and `scaling_matrix`. Both transforms only
 ever hold a pure translation and a diagonal scale, so a node stores the
 offset and the diagonal; `TranslationMatrix` and `ScalingMatrix` rebuild the
 4x4 matrices, and the contracts below relate them to the source's products.
 */
module Nodes {
  import opened Wrappers
  import opened Geometry
  import Aabb
  import Color

  /** Cube and Sphere are primitives; a hierarchical node owns its children. */
  datatype Shape = Cube | Sphere | Group(children: seq<Node>)

  /**
   What a successful pick leaves on a node: the hit distance (`depth`) and the
   hit point (`selected_loc`), both in camera space.
   */
  datatype Grab = Grab(depth: real, loc: Vec3)

  datatype Node = Node(
    shape: Shape,
    color: int,
    box: Aabb.Box,
    offset: Vec3,
    scale: Vec3,
    selected: bool,
    grab: Option<Grab>)

  const Ones: Vec3 := Vec3(1.0, 1.0, 1.0)

  /** The box every node starts with: centred at its origin, half-extent 0.5. */
  const UnitBox: Aabb.Box := Aabb.Box(Zero, Vec3(0.5, 0.5, 0.5))

  function Uniform(s: real): Vec3
  {
    Vec3(s, s, s)
  }

  function TranslationMatrix(n: Node): Mat4
  {
    Translation(n.offset)
  }

  function ScalingMatrix(n: Node): Mat4
  {
    Scaling(n.scale)
  }

  /**
   The invariant every node of the modeller keeps: a palette colour, a
   strictly positive scale diagonal, and a box centred at its origin with
   non-negative half-extents.
   */
  predicate NodeOk(n: Node)
  {
    && Color.InPalette(n.color)
    && Positive(n.scale)
    && n.box.centre == Zero
    && n.box.size.x >= 0.0 && n.box.size.y >= 0.0 && n.box.size.z >= 0.0
  }

  /** A positive diagonal has an inverse, so `inv(scaling_matrix)` exists. */
  lemma NodeOkInvertible(n: Node)
    requires NodeOk(n)
    ensures NonSingular(n.scale)
    ensures Mul(ScalingMatrix(n), Scaling(Reciprocal(n.scale))) == Identity
  {
    ReciprocalInvertsScaling(n.scale);
  }

  /**
   `Node.__init__`: `color` is the value `random.randint(MIN_COLOR, MAX_COLOR)`
   drew. A hierarchical node starts as `Group([])`.
   */
  function NewNode(shape: Shape, color: int): (n: Node)
    requires Color.InPalette(color)
    ensures NodeOk(n)
    ensures n.shape == shape && n.color == color && n.box == UnitBox
    ensures n.offset == Zero && n.scale == Ones
    ensures !n.selected && n.grab == None
  {
    Node(shape, color, UnitBox, Zero, Ones, false, None)
  }

  /** A node with zero offset and unit scale, as every new node is, has identity matrices. */
  lemma FreshMatrices(n: Node)
    requires n.offset == Zero && n.scale == Ones
    ensures TranslationMatrix(n) == Identity && ScalingMatrix(n) == Identity
  {
    TranslationOfZero();
    ScalingOfOnes();
  }

  /** `Node.translate`: post-multiplies the translation by `d`. */
  function Translate(n: Node, d: Vec3): (r: Node)
    ensures r.(offset := n.offset) == n
  {
    n.(offset := Add(n.offset, d))
  }

  /** The new translation matrix is the old one times `translation(d)`. */
  lemma TranslateIsProduct(n: Node, d: Vec3)
    ensures TranslationMatrix(Translate(n, d)) == Mul(TranslationMatrix(n), Translation(d))
  {
    TranslationsCompose(n.offset, d);
  }

  function Sum(ds: seq<Vec3>): Vec3
  {
    if |ds| == 0 then Zero else Add(Sum(ds[..|ds| - 1]), ds[|ds| - 1])
  }

  /** The node after translating by each delta in turn. */
  function TranslateAll(n: Node, ds: seq<Vec3>): Node
  {
    if |ds| == 0 then n else Translate(TranslateAll(n, ds[..|ds| - 1]), ds[|ds| - 1])
  }

  /**
   The translation stays a pure translation whose offset is the running sum of
   every delta applied, and nothing else about the node changes.
   */
  lemma {:induction false} TranslationsAccumulate(n: Node, ds: seq<Vec3>)
    ensures TranslateAll(n, ds) == n.(offset := Add(n.offset, Sum(ds)))
    ensures TranslationMatrix(TranslateAll(n, ds)) == Translation(Add(n.offset, Sum(ds)))
    decreases |ds|
  {
    if |ds| > 0 {
      var init, last := ds[..|ds| - 1], ds[|ds| - 1];
      TranslationsAccumulate(n, init);
      assert Add(Add(n.offset, Sum(init)), last) == Add(n.offset, Add(Sum(init), last));
    }
  }

  /** The factor of one `scale` step. */
  function Factor(up: bool): (s: real)
    ensures s > 0.0
    ensures up ==> s > 1.0
    ensures !up ==> s < 1.0
  {
    if up then 1.1 else 0.9
  }

  /**
   `Node.scale`: post-multiplies the scaling matrix by a uniform scale and
   scales the box by the same factor. Children of a group are not touched.
   */
  function Rescale(n: Node, up: bool): (r: Node)
    ensures r.box == Aabb.ScaleBox(n.box, Factor(up))
    ensures r.(scale := n.scale, box := n.box) == n
    ensures Positive(n.scale) ==> Positive(r.scale)
  {
    var s := Factor(up);
    n.(scale := Hadamard(n.scale, Uniform(s)), box := Aabb.ScaleBox(n.box, s))
  }

  /** The new scaling matrix is the old one times `scaling([s, s, s])`. */
  lemma RescaleIsProduct(n: Node, up: bool)
    ensures ScalingMatrix(Rescale(n, up)) == Mul(ScalingMatrix(n), Scaling(Uniform(Factor(up))))
  {
    ScalingsCompose(n.scale, Uniform(Factor(up)));
  }

  /** Scaling up and then down multiplies the diagonal by 0.99, not 1. */
  lemma UpThenDown(n: Node)
    ensures Rescale(Rescale(n, true), false).scale == Hadamard(n.scale, Uniform(0.99))
    ensures Rescale(Rescale(n, true), false).box == Aabb.ScaleBox(n.box, 0.99)
  {
    Aabb.ScaleBoxComposes(n.box, 1.1, 0.9);
  }

  /**
   `Node.pick`: the slab test against the box mapped by
   `modelview * T * inv(S)`. The model runs the corrected slab test; for the
   centred boxes every node has, it returns what the source's test returns.
   */
  function PickTransform(n: Node, modelview: Mat4): Mat4
    requires NonSingular(n.scale)
  {
    Mul(Mul(modelview, TranslationMatrix(n)), Scaling(Reciprocal(n.scale)))
  }

  function Pick(n: Node, ray: Ray, modelview: Mat4): (r: Aabb.Hit)
    requires NonSingular(n.scale)
    ensures r.hit ==> 0.0 <= r.distance <= Aabb.FAR
    ensures !r.hit ==> r == Aabb.Miss
    ensures r == Aabb.RayHitCorrected(n.box, ray, PickTransform(n, modelview))
    ensures n.box.centre == Zero ==> r == Aabb.RayHit(n.box, ray, PickTransform(n, modelview))
  {
    var m := PickTransform(n, modelview);
    if n.box.centre == Zero then Aabb.CentredBoxesAgree(n.box, ray, m); Aabb.RayHitCorrected(n.box, ray, m)
    else Aabb.RayHitCorrected(n.box, ray, m)
  }

  /** The pick depends only on the geometry, not on colour or selection. */
  lemma PickIgnoresState(n: Node, ray: Ray, modelview: Mat4, c: int, sel: bool, g: Option<Grab>)
    requires NonSingular(n.scale)
    ensures Pick(n.(color := c, selected := sel, grab := g), ray, modelview) == Pick(n, ray, modelview)
  {
  }

  /** `Node.select`: `None` toggles the flag, `Some(b)` sets it to b. */
  function Select(n: Node, state: Option<bool>): (r: Node)
    ensures state.Some? ==> r.selected == state.value
    ensures state.None? ==> r.selected != n.selected
    ensures r.(selected := n.selected) == n
  {
    n.(selected := if state.Some? then state.value else !n.selected)
  }

  /** Toggling twice restores the node; setting is idempotent. */
  lemma SelectLaws(n: Node, b: bool)
    ensures Select(Select(n, None), None) == n
    ensures Select(Select(n, Some(b)), Some(b)) == Select(n, Some(b))
    ensures Select(n, Some(n.selected)) == n
  {
  }

  /** The palette step of `rotate_color`: forward +1, backward -1. */
  function Step(forward: bool): int
  {
    if forward then 1 else -1
  }

  /**
   `Node.rotate_color`: steps the index and wraps past either end of the
   palette. Whatever index it starts from, it ends inside the palette; from a
   palette index it moves one place round the cycle of eight.
   */
  function RotateColor(n: Node, forward: bool): (r: Node)
    ensures Color.InPalette(r.color)
    ensures r.(color := n.color) == n
    ensures Color.InPalette(n.color) ==> r.color == (n.color + Step(forward)) % Color.PALETTE_SIZE
    ensures forward && n.color == Color.MAX_COLOR ==> r.color == Color.MIN_COLOR
    ensures !forward && n.color == Color.MIN_COLOR ==> r.color == Color.MAX_COLOR
  {
    var c := n.color + Step(forward);
    var c := if c > Color.MAX_COLOR then Color.MIN_COLOR else c;
    var c := if c < Color.MIN_COLOR then Color.MAX_COLOR else c;
    n.(color := c)
  }

  function RotateColorTimes(n: Node, forward: bool, k: nat): Node
  {
    if k == 0 then n else RotateColor(RotateColorTimes(n, forward, k - 1), forward)
  }

  /** k forward steps from a palette index land k places round the cycle. */
  lemma {:induction false} RotateColorCycles(n: Node, k: nat)
    requires Color.InPalette(n.color)
    ensures RotateColorTimes(n, true, k) == n.(color := (n.color + k) % Color.PALETTE_SIZE)
  {
    if k > 0 {
      RotateColorCycles(n, k - 1);
      ModSucc(n.color + k - 1);
    }
  }

  /** One more step round the cycle of the palette. */
  lemma ModSucc(a: nat)
    ensures (a % Color.PALETTE_SIZE + 1) % Color.PALETTE_SIZE == (a + 1) % Color.PALETTE_SIZE
  {
  }

  /** Eight forward steps, one full turn of the palette, restore the colour. */
  lemma EightStepsRestore(n: Node)
    requires Color.InPalette(n.color)
    ensures RotateColorTimes(n, true, 8) == n
  {
    RotateColorCycles(n, 8);
    FullTurn(n.color);
  }

  /** Adding a whole turn of the palette leaves a palette index where it was. */
  lemma FullTurn(c: int)
    requires Color.InPalette(c)
    ensures (c + Color.PALETTE_SIZE) % Color.PALETTE_SIZE == c
  {
  }

  /** A backward step undoes a forward step and vice versa. */
  lemma RotateColorInverse(n: Node, forward: bool)
    requires Color.InPalette(n.color)
    ensures RotateColor(RotateColor(n, forward), !forward) == n
  {
  }

  // ---- SnowFigure --------------------------------------------------------------

  /**
   One sphere of the snow figure: a sphere at height dy on the y axis, with
   uniform scale s and colour `MIN_COLOR`.
   */
  function Ball(dy: real, s: real): Node
  {
    Node(Sphere, Color.MIN_COLOR, UnitBox, Vec3(0.0, dy, 0.0), Uniform(s), false, None)
  }

  /**
   A ball is what the figure's constructor makes of a fresh sphere, whatever
   colour `randint` drew for it (k): translated by (0, dy, 0), its scaling
   matrix replaced by the figure's (the identity) times `scaling([s, s, s])`,
   and its colour overwritten with `MIN_COLOR`.
   */
  lemma BallIsBuiltSphere(dy: real, s: real, k: int)
    requires Color.InPalette(k)
    ensures Ball(dy, s) == Translate(NewNode(Sphere, k), Vec3(0.0, dy, 0.0)).(scale := Hadamard(Ones, Uniform(s)), color := Color.MIN_COLOR)
    ensures Scaling(Ball(dy, s).scale) == Mul(Identity, Scaling(Uniform(s)))
  {
    assert Add(Zero, Vec3(0.0, dy, 0.0)) == Vec3(0.0, dy, 0.0);
    assert Hadamard(Ones, Uniform(s)) == Uniform(s);
    ScalingOfOnes();
    ScalingsCompose(Ones, Uniform(s));
  }

  /** A child of the snow figure: an unselected sphere with the unit box, coloured `MIN_COLOR`. */
  predicate Snowball(c: Node)
  {
    c.shape == Sphere && c.color == Color.MIN_COLOR && c.box == UnitBox && !c.selected && c.grab == None
  }

  /**
   `SnowFigure.__init__`: a group of three spheres stacked along y, the lower
   one unscaled, the upper two scaled by 0.8 and 0.7, all coloured `MIN_COLOR`
   (red), inside a box of half-extent (0.5, 1.1, 0.5). `color` is the figure's
   own random colour; the colours drawn for the children are overwritten.
   */
  function SnowFigure(color: int): (f: Node)
    requires Color.InPalette(color)
    ensures NodeOk(f)
    ensures f.color == color && !f.selected && f.grab == None
    ensures f.offset == Zero && f.scale == Ones
    ensures f.box == Aabb.Box(Zero, Vec3(0.5, 1.1, 0.5))
    ensures f.shape.Group? && |f.shape.children| == 3
    ensures Snowball(f.shape.children[0]) && Snowball(f.shape.children[1]) && Snowball(f.shape.children[2])
    ensures f.shape.children[0].offset == Vec3(0.0, -0.6, 0.0) && f.shape.children[0].scale == Ones
    ensures f.shape.children[1].offset == Vec3(0.0, 0.1, 0.0) && f.shape.children[1].scale == Uniform(0.8)
    ensures f.shape.children[2].offset == Vec3(0.0, 0.75, 0.0) && f.shape.children[2].scale == Uniform(0.7)
  {
    var base := NewNode(Group([]), color);
    var kids := [Ball(-0.6, 1.0), Ball(0.1, 0.8), Ball(0.75, 0.7)];
    base.(shape := Group(kids), box := Aabb.Box(Zero, Vec3(0.5, 1.1, 0.5)))
  }

  /** Scaling a figure scales its own matrix and box, never its children. */
  lemma ScalingFigureKeepsChildren(f: Node, up: bool)
    requires f.shape.Group?
    ensures Rescale(f, up).shape.children == f.shape.children
  {
  }

  // ---- the invariant -----------------------------------------------------------

  /** Every node operation keeps `NodeOk`. */
  lemma OperationsKeepNodeOk(n: Node, d: Vec3, up: bool, forward: bool, state: Option<bool>)
    requires NodeOk(n)
    ensures NodeOk(Translate(n, d))
    ensures NodeOk(Rescale(n, up))
    ensures NodeOk(RotateColor(n, forward))
    ensures NodeOk(Select(n, state))
  {
    var r := Rescale(n, up);
    assert r.box.size == Scale(n.box.size, Factor(up));
  }
}

=== FILE: scene.dfy ===
/**
 The scene: a flat list of top-level nodes and the index of the selected one,
 if any. Picking selects the nearest node under a ray, moving drags the
 selected node at the depth where it was picked, and placing appends a new
 node at a fixed depth along the ray. Camera matrices and rays are inputs.
 */
module Scenes {
  import opened Wrappers
  import opened Geometry
  import Aabb
  import Color
  import Nodes

  /** How far along the cursor ray `place` puts a new node. */
  const PLACE_DEPTH: real := 15.0

  /** `sys.maxsize`, the distance `pick` starts from; every hit is nearer. */
  const MAXSIZE: real := 9223372036854775807.0

  datatype Scene = Scene(nodes: seq<Nodes.Node>, selected: Option<nat>)

  /** `selected_node` refers to a node of the list. */
  predicate SelectionInRange(s: Scene)
  {
    s.selected.Some? ==> s.selected.value < |s.nodes|
  }

  /** The selected node carries the depth and point of the pick that selected it. */
  predicate Grabbed(s: Scene)
  {
    SelectionInRange(s) && (s.selected.Some? ==> s.nodes[s.selected.value].grab.Some?)
  }

  /** Every node's scaling matrix can be inverted, as `Node.pick` needs. */
  predicate Pickable(nodes: seq<Nodes.Node>)
  {
    forall j :: 0 <= j < |nodes| ==> NonSingular(nodes[j].scale)
  }

  /**
   The scene invariant: every node keeps `NodeOk`, the selection is a grabbed
   node of the list, and exactly the selected node has its flag set.
   */
  predicate Valid(s: Scene)
  {
    && (forall j :: 0 <= j < |s.nodes| ==> Nodes.NodeOk(s.nodes[j]))
    && Grabbed(s)
    && (forall j :: 0 <= j < |s.nodes| ==> (s.nodes[j].selected <==> s.selected == Some(j)))
  }

  lemma ValidPickable(s: Scene)
    requires Valid(s)
    ensures Pickable(s.nodes)
  {
    forall j | 0 <= j < |s.nodes|
      ensures NonSingular(s.nodes[j].scale)
    {
      assert Nodes.NodeOk(s.nodes[j]);
    }
  }

  /** In a valid scene at most one node is selected, and it is `selected`. */
  lemma AtMostOneSelected(s: Scene, j: nat, k: nat)
    requires Valid(s) && j < |s.nodes| && k < |s.nodes|
    requires s.nodes[j].selected && s.nodes[k].selected
    ensures j == k && s.selected == Some(j)
  {
  }

  /** `Scene.__init__`. */
  function Empty(): (s: Scene)
    ensures Valid(s)
    ensures s.nodes == [] && s.selected == None
  {
    Scene([], None)
  }

  /** `Scene.add_node`: appends to the list; the selection is kept. */
  function AddNode(s: Scene, n: Nodes.Node): (r: Scene)
    ensures |r.nodes| == |s.nodes| + 1 && r.nodes[..|s.nodes|] == s.nodes && r.nodes[|s.nodes|] == n
    ensures r.selected == s.selected
  {
    Scene(s.nodes + [n], s.selected)
  }

  lemma AddNodeKeepsValid(s: Scene, n: Nodes.Node)
    requires Valid(s) && Nodes.NodeOk(n) && !n.selected
    ensures Valid(AddNode(s, n))
  {
    var r := AddNode(s, n);
    assert forall j :: 0 <= j < |s.nodes| ==> r.nodes[j] == s.nodes[j];
  }

  // ---- pick --------------------------------------------------------------------

  /** What each node's `pick` reports for the ray, in list order. */
  function Hits(nodes: seq<Nodes.Node>, ray: Ray, modelview: Mat4): (h: seq<Aabb.Hit>)
    requires Pickable(nodes)
    ensures |h| == |nodes|
  {
    seq(|nodes|, j requires 0 <= j < |nodes| => Nodes.Pick(nodes[j], ray, modelview))
  }

  lemma HitIsNodePick(nodes: seq<Nodes.Node>, ray: Ray, modelview: Mat4, j: nat)
    requires Pickable(nodes) && j < |nodes|
    ensures Hits(nodes, ray, modelview)[j] == Nodes.Pick(nodes[j], ray, modelview)
    ensures Hits(nodes, ray, modelview)[j].hit ==> Hits(nodes, ray, modelview)[j].distance <= Aabb.FAR
  {
  }

  /** Hits depend on geometry only, so changing flags and grabs keeps them. */
  lemma HitsIgnoreState(a: seq<Nodes.Node>, b: seq<Nodes.Node>, ray: Ray, modelview: Mat4)
    requires |a| == |b|
    requires forall j :: 0 <= j < |a| ==> a[j].box == b[j].box && a[j].offset == b[j].offset && a[j].scale == b[j].scale
    requires Pickable(a)
    ensures Pickable(b)
    ensures Hits(a, ray, modelview) == Hits(b, ray, modelview)
  {
    assert Pickable(b) by {
      forall j | 0 <= j < |b| ensures NonSingular(b[j].scale) {
        assert a[j].scale == b[j].scale;
      }
    }
    forall j | 0 <= j < |a|
      ensures Hits(a, ray, modelview)[j] == Hits(b, ray, modelview)[j]
    {
      HitIsNodePick(a, ray, modelview, j);
      HitIsNodePick(b, ray, modelview, j);
      assert b[j] == a[j].(color := b[j].color, selected := b[j].selected, grab := b[j].grab, shape := b[j].shape);
      Nodes.PickIgnoresState(a[j], ray, modelview, b[j].color, b[j].selected, b[j].grab);
    }
  }

  /** Every hit distance is below `MAXSIZE`, so every hit counts in the scan. */
  predicate Bounded(hits: seq<Aabb.Hit>)
  {
    forall j :: 0 <= j < |hits| && hits[j].hit ==> hits[j].distance < MAXSIZE
  }

  lemma HitsBounded(nodes: seq<Nodes.Node>, ray: Ray, modelview: Mat4)
    requires Pickable(nodes)
    ensures Bounded(Hits(nodes, ray, modelview))
  {
    forall j | 0 <= j < |nodes| && Hits(nodes, ray, modelview)[j].hit
      ensures Hits(nodes, ray, modelview)[j].distance < MAXSIZE
    {
      HitIsNodePick(nodes, ray, modelview, j);
    }
  }

  /**
   Entry i is what `pick` should select: it is a hit, no hit is nearer, and
   every hit before it is strictly farther (ties go to the first).
   */
  predicate IsNearest(hits: seq<Aabb.Hit>, i: nat)
  {
    && i < |hits|
    && hits[i].hit
    && (forall j :: 0 <= j < |hits| && hits[j].hit ==> hits[i].distance <= hits[j].distance)
    && (forall j :: 0 <= j < i && hits[j].hit ==> hits[i].distance < hits[j].distance)
  }

  /** At most one entry is the nearest. */
  lemma NearestIsUnique(hits: seq<Aabb.Hit>, i: nat, k: nat)
    requires IsNearest(hits, i) && IsNearest(hits, k)
    ensures i == k
  {
  }

  /**
   The loop of `pick` over the first k hits, as `(mindist, closest)`: an entry
   replaces the running best only when it is a hit strictly nearer.
   */
  function Scan(hits: seq<Aabb.Hit>, k: nat): (r: (real, Option<nat>))
    requires k <= |hits| && Bounded(hits)
    ensures r.1.None? ==> r.0 == MAXSIZE
    ensures r.1.None? ==> forall j :: 0 <= j < k ==> !hits[j].hit
    ensures r.1.Some? ==> r.1.value < k && hits[r.1.value] == Aabb.Hit(true, r.0)
    ensures forall j :: 0 <= j < k && hits[j].hit ==> r.0 <= hits[j].distance
    ensures r.1.Some? ==> forall j :: 0 <= j < r.1.value && hits[j].hit ==> r.0 < hits[j].distance
    decreases k
  {
    if k == 0 then (MAXSIZE, None)
    else
      var prev := Scan(hits, k - 1);
      var h := hits[k - 1];
      if h.hit && h.distance < prev.0 then (h.distance, Some(k - 1)) else prev
  }

  /** The scan over all hits finds the nearest hit, and nothing only when nothing is hit. */
  lemma ScanFindsNearest(hits: seq<Aabb.Hit>)
    requires Bounded(hits)
    ensures Scan(hits, |hits|).1.None? <==> forall j :: 0 <= j < |hits| ==> !hits[j].hit
    ensures Scan(hits, |hits|).1.Some? ==> IsNearest(hits, Scan(hits, |hits|).1.value)
  {
  }

  /** Clears the old selection: `select(False)` on it, then `selected_node = None`. */
  function Deselect(s: Scene): (r: Scene)
    requires SelectionInRange(s)
    ensures r.selected == None && |r.nodes| == |s.nodes|
    ensures forall j :: 0 <= j < |s.nodes| ==>
      r.nodes[j] == if s.selected == Some(j) then s.nodes[j].(selected := false) else s.nodes[j]
  {
    match s.selected
    case None => s
    case Some(i) => Scene(s.nodes[i := Nodes.Select(s.nodes[i], Some(false))], None)
  }

  /**
   The selection step of `pick`, given what each node's test reported:
   clear the old selection, scan, and select the nearest hit, recording the
   hit distance and the hit point on it.
   */
  function PickWith(s: Scene, ray: Ray, hits: seq<Aabb.Hit>): (r: Scene)
    requires SelectionInRange(s) && |hits| == |s.nodes| && Bounded(hits)
    ensures |r.nodes| == |s.nodes|
    ensures r.selected.None? <==> forall j :: 0 <= j < |s.nodes| ==> !hits[j].hit
    ensures r.selected.Some? ==> IsNearest(hits, r.selected.value)
    ensures r.selected.Some? ==>
      var i := r.selected.value;
      r.nodes[i] == s.nodes[i].(selected := true, grab := Some(Nodes.Grab(hits[i].distance, PointAt(ray, hits[i].distance))))
    ensures forall j :: 0 <= j < |s.nodes| && r.selected != Some(j) ==>
      r.nodes[j] == if s.selected == Some(j) then s.nodes[j].(selected := false) else s.nodes[j]
  {
    var cleared := Deselect(s);
    ScanFindsNearest(hits);
    var best := Scan(hits, |hits|);
    match best.1
    case None => cleared
    case Some(i) =>
      var node := Nodes.Select(cleared.nodes[i], Some(true));
      Scene(cleared.nodes[i := node.(grab := Some(Nodes.Grab(best.0, PointAt(ray, best.0))))], Some(i))
  }

  /** Selecting again from the same hits changes nothing. */
  lemma PickWithIdempotent(s: Scene, ray: Ray, hits: seq<Aabb.Hit>)
    requires SelectionInRange(s) && |hits| == |s.nodes| && Bounded(hits)
    ensures SelectionInRange(PickWith(s, ray, hits))
    ensures PickWith(PickWith(s, ray, hits), ray, hits) == PickWith(s, ray, hits)
  {
    var p := PickWith(s, ray, hits);
    var q := PickWith(p, ray, hits);
    if p.selected.Some? {
      var i := p.selected.value;
      NearestIsUnique(hits, i, q.selected.value);
      assert q.nodes[i] == p.nodes[i];
    }
    assert forall j :: 0 <= j < |q.nodes| ==> q.nodes[j] == p.nodes[j];
  }

  /**
   `Scene.pick`: runs every node's test after clearing the selection, then
   selects the nearest node hit.
   */
  function Pick(s: Scene, ray: Ray, modelview: Mat4): (r: Scene)
    requires SelectionInRange(s) && Pickable(s.nodes)
    ensures |r.nodes| == |s.nodes|
    ensures r.selected.None? <==> forall j :: 0 <= j < |s.nodes| ==> !Hits(s.nodes, ray, modelview)[j].hit
    ensures r.selected.Some? ==> IsNearest(Hits(s.nodes, ray, modelview), r.selected.value)
    ensures r == PickWith(s, ray, Hits(s.nodes, ray, modelview))
  {
    HitsIgnoreState(s.nodes, Deselect(s).nodes, ray, modelview);
    HitsBounded(s.nodes, ray, modelview);
    PickWith(s, ray, Hits(Deselect(s).nodes, ray, modelview))
  }

  lemma PickKeepsValid(s: Scene, ray: Ray, modelview: Mat4)
    requires Valid(s)
    ensures Pickable(s.nodes)
    ensures Valid(Pick(s, ray, modelview))
  {
    ValidPickable(s);
    var r := Pick(s, ray, modelview);
    HitsBounded(s.nodes, ray, modelview);
    forall j | 0 <= j < |r.nodes|
      ensures Nodes.NodeOk(r.nodes[j])
      ensures r.nodes[j].selected <==> r.selected == Some(j)
    {
      assert Nodes.NodeOk(s.nodes[j]);
    }
  }

  /** Picking again with the same ray changes nothing. */
  lemma PickIdempotent(s: Scene, ray: Ray, modelview: Mat4)
    requires Valid(s)
    ensures Pickable(s.nodes) && Valid(Pick(s, ray, modelview))
    ensures Pick(Pick(s, ray, modelview), ray, modelview) == Pick(s, ray, modelview)
  {
    PickKeepsValid(s, ray, modelview);
    var p := Pick(s, ray, modelview);
    HitsIgnoreState(s.nodes, p.nodes, ray, modelview);
    HitsBounded(s.nodes, ray, modelview);
    PickWithIdempotent(s, ray, Hits(s.nodes, ray, modelview));
  }

  // ---- move --------------------------------------------------------------------

  /**
   The camera-space drag `new - old` mapped by `inv_model` as a direction
   (w = 0): the world-space translation `move_selected` applies.
   */
  function WorldDelta(invModel: Mat4, from: Vec3, to: Vec3): Vec3
  {
    Xyz(Apply(invModel, AsDisplacement(Sub(to, from))))
  }

  /**
   `Scene.move_selected`: the selected node follows the new ray at the depth
   where it was picked; without a selection nothing happens.
   */
  function MoveSelected(s: Scene, ray: Ray, invModel: Mat4): (r: Scene)
    requires Grabbed(s)
    ensures r.selected == s.selected && |r.nodes| == |s.nodes|
    ensures s.selected.None? ==> r == s
    ensures forall j :: 0 <= j < |s.nodes| && s.selected != Some(j) ==> r.nodes[j] == s.nodes[j]
    ensures s.selected.Some? ==>
      var n, n' := s.nodes[s.selected.value], r.nodes[s.selected.value];
      && n'.grab == Some(Nodes.Grab(n.grab.value.depth, PointAt(ray, n.grab.value.depth)))
      && n'.offset == Add(n.offset, WorldDelta(invModel, n.grab.value.loc, PointAt(ray, n.grab.value.depth)))
      && n'.(offset := n.offset, grab := n.grab) == n
  {
    match s.selected
    case None => s
    case Some(i) =>
      var node := s.nodes[i];
      var g := node.grab.value;
      var target := PointAt(ray, g.depth);
      var moved := Nodes.Translate(node, WorldDelta(invModel, g.loc, target));
      Scene(s.nodes[i := moved.(grab := Some(Nodes.Grab(g.depth, target)))], s.selected)
  }

  lemma MoveKeepsValid(s: Scene, ray: Ray, invModel: Mat4)
    requires Valid(s)
    ensures Valid(MoveSelected(s, ray, invModel))
  {
    var r := MoveSelected(s, ray, invModel);
    forall j | 0 <= j < |r.nodes|
      ensures Nodes.NodeOk(r.nodes[j])
    {
      assert Nodes.NodeOk(s.nodes[j]);
    }
  }

  /** Right after a pick, moving along the same ray leaves the scene as it is. */
  lemma MoveAlongPickRayIsStill(s: Scene, ray: Ray, modelview: Mat4, invModel: Mat4)
    requires Valid(s)
    ensures Pickable(s.nodes) && Valid(Pick(s, ray, modelview))
    ensures MoveSelected(Pick(s, ray, modelview), ray, invModel) == Pick(s, ray, modelview)
  {
    PickKeepsValid(s, ray, modelview);
    var p := Pick(s, ray, modelview);
    if p.selected.Some? {
      var i := p.selected.value;
      var g := p.nodes[i].grab.value;
      assert g.loc == PointAt(ray, g.depth);
      assert Sub(PointAt(ray, g.depth), g.loc) == Zero;
      assert WorldDelta(invModel, g.loc, PointAt(ray, g.depth)) == Zero;
      assert Add(p.nodes[i].offset, Zero) == p.nodes[i].offset;
      assert MoveSelected(p, ray, invModel).nodes == p.nodes;
    }
  }

  /** Only the linear part of `inv_model` matters: its translation column is ignored. */
  lemma MoveIgnoresTranslationColumn(s: Scene, ray: Ray, inv1: Mat4, inv2: Mat4)
    requires Grabbed(s) && SameLinearPart(inv1, inv2)
    ensures MoveSelected(s, ray, inv1) == MoveSelected(s, ray, inv2)
  {
    if s.selected.Some? {
      var g := s.nodes[s.selected.value].grab.value;
      DisplacementIgnoresTranslation(inv1, inv2, Sub(PointAt(ray, g.depth), g.loc));
    }
  }

  /** When the camera is only translated, the node moves exactly as the grab point does. */
  lemma MoveUnderTranslatedCamera(s: Scene, ray: Ray, t: Vec3)
    requires Grabbed(s) && s.selected.Some?
    ensures var i, g := s.selected.value, s.nodes[s.selected.value].grab.value;
      MoveSelected(s, ray, Translation(t)).nodes[i].offset
        == Add(s.nodes[i].offset, Sub(PointAt(ray, g.depth), g.loc))
  {
    var g := s.nodes[s.selected.value].grab.value;
    TranslationActs(t, Sub(PointAt(ray, g.depth), g.loc));
  }

  /** Two moves in a row put the node where one move to the second ray does. */
  lemma MovesTelescope(s: Scene, ray1: Ray, ray2: Ray, invModel: Mat4)
    requires Grabbed(s)
    ensures Grabbed(MoveSelected(s, ray1, invModel))
    ensures MoveSelected(MoveSelected(s, ray1, invModel), ray2, invModel) == MoveSelected(s, ray2, invModel)
  {
    if s.selected.Some? {
      var i := s.selected.value;
      var g := s.nodes[i].grab.value;
      var p1, p2 := PointAt(ray1, g.depth), PointAt(ray2, g.depth);
      DisplacementAdditive(invModel, Sub(p1, g.loc), Sub(p2, p1));
      assert Add(Sub(p1, g.loc), Sub(p2, p1)) == Sub(p2, g.loc);
      var once := MoveSelected(s, ray1, invModel);
      var twice := MoveSelected(once, ray2, invModel);
      var direct := MoveSelected(s, ray2, invModel);
      assert twice.nodes[i].offset
          == Add(Add(s.nodes[i].offset, WorldDelta(invModel, g.loc, p1)), WorldDelta(invModel, p1, p2));
      assert twice.nodes[i] == direct.nodes[i];
      assert twice.nodes == direct.nodes;
    }
  }

  // ---- place -------------------------------------------------------------------

  datatype PlaceError = UnknownShape(name: string)

  /** The shape names `place` understands. */
  const SHAPES: set<string> := {"sphere", "cube", "figure"}

  /**
   The node the shape name stands for; any other name is the `KeyError` of
   the source's dictionary lookup. `color` is the random colour drawn for it.
   */
  function Build(shape: string, color: int): (r: Result<Nodes.Node, PlaceError>)
    requires Color.InPalette(color)
    ensures r.Success? <==> shape in SHAPES
    ensures r.Failure? ==> r.error == UnknownShape(shape)
    ensures r.Success? ==> Nodes.NodeOk(r.value) && !r.value.selected && r.value.grab == None
    ensures r.Success? ==> r.value.offset == Zero && r.value.color == color
    ensures shape == "sphere" ==> r == Success(Nodes.NewNode(Nodes.Sphere, color))
    ensures shape == "cube" ==> r == Success(Nodes.NewNode(Nodes.Cube, color))
    ensures shape == "figure" ==> r == Success(Nodes.SnowFigure(color))
  {
    if shape == "sphere" then Success(Nodes.NewNode(Nodes.Sphere, color))
    else if shape == "cube" then Success(Nodes.NewNode(Nodes.Cube, color))
    else if shape == "figure" then Success(Nodes.SnowFigure(color))
    else Failure(UnknownShape(shape))
  }

  /** Where `place` puts a node: the point at `PLACE_DEPTH` on the ray, mapped by `inv_model` as a point. */
  function PlaceLocation(ray: Ray, invModel: Mat4): Vec3
  {
    Xyz(Apply(invModel, AsPoint(PointAt(ray, PLACE_DEPTH))))
  }

  /**
   `Scene.place`: builds the node, appends it, and translates it to the
   place location. The selection and the existing nodes are untouched.
   */
  function Place(s: Scene, shape: string, ray: Ray, invModel: Mat4, color: int)
    : (r: Result<Scene, PlaceError>)
    requires Color.InPalette(color)
    ensures r.Success? <==> shape in SHAPES
    ensures r.Failure? ==> r.error == UnknownShape(shape)
    ensures r.Success? ==>
      && |r.value.nodes| == |s.nodes| + 1
      && r.value.nodes[..|s.nodes|] == s.nodes
      && r.value.selected == s.selected
    ensures r.Success? ==>
      var n := r.value.nodes[|s.nodes|];
      && n.offset == PlaceLocation(ray, invModel)
      && n.(offset := Zero) == Build(shape, color).value
      && Nodes.NodeOk(n) && !n.selected && n.color == color
  {
    match Build(shape, color)
    case Failure(e) => Failure(e)
    case Success(node) =>
      Success(AddNode(s, Nodes.Translate(node, PlaceLocation(ray, invModel))))
  }

  /** The new node's translation matrix is the translation to the place location. */
  lemma PlaceTranslation(s: Scene, shape: string, ray: Ray, invModel: Mat4, color: int)
    requires Color.InPalette(color)
    requires shape in SHAPES
    ensures Nodes.TranslationMatrix(Place(s, shape, ray, invModel, color).value.nodes[|s.nodes|])
         == Translation(PlaceLocation(ray, invModel))
  {
  }

  lemma PlaceKeepsValid(s: Scene, shape: string, ray: Ray, invModel: Mat4, color: int)
    requires Valid(s)
    requires Color.InPalette(color)
    ensures Place(s, shape, ray, invModel, color).Success? ==> Valid(Place(s, shape, ray, invModel, color).value)
  {
    var r := Place(s, shape, ray, invModel, color);
    if r.Success? {
      AddNodeKeepsValid(s, r.value.nodes[|s.nodes|]);
      assert r.value == AddNode(s, r.value.nodes[|s.nodes|]);
    }
  }

  // ---- colour and scale of the selection -----------------------------------------

  /** `Scene.rotate_selected_color`: only the selected node changes, if there is one. */
  function RotateSelectedColor(s: Scene, forward: bool): (r: Scene)
    requires SelectionInRange(s)
    ensures r.selected == s.selected && |r.nodes| == |s.nodes|
    ensures s.selected.None? ==> r == s
    ensures forall j :: 0 <= j < |s.nodes| ==>
      r.nodes[j] == if s.selected == Some(j) then Nodes.RotateColor(s.nodes[j], forward) else s.nodes[j]
  {
    match s.selected
    case None => s
    case Some(i) => Scene(s.nodes[i := Nodes.RotateColor(s.nodes[i], forward)], s.selected)
  }

  /** `Scene.scale_selected`: only the selected node changes, if there is one. */
  function ScaleSelected(s: Scene, up: bool): (r: Scene)
    requires SelectionInRange(s)
    ensures r.selected == s.selected && |r.nodes| == |s.nodes|
    ensures s.selected.None? ==> r == s
    ensures forall j :: 0 <= j < |s.nodes| ==>
      r.nodes[j] == if s.selected == Some(j) then Nodes.Rescale(s.nodes[j], up) else s.nodes[j]
  {
    match s.selected
    case None => s
    case Some(i) => Scene(s.nodes[i := Nodes.Rescale(s.nodes[i], up)], s.selected)
  }

  lemma SelectionEditsKeepValid(s: Scene, forward: bool, up: bool)
    requires Valid(s)
    ensures Valid(RotateSelectedColor(s, forward))
    ensures Valid(ScaleSelected(s, up))
  {
    forall j | 0 <= j < |s.nodes|
      ensures Nodes.NodeOk(RotateSelectedColor(s, forward).nodes[j])
      ensures Nodes.NodeOk(ScaleSelected(s, up).nodes[j])
    {
      Nodes.OperationsKeepNodeOk(s.nodes[j], Zero, up, forward, None);
    }
  }
}

=== FILE: trackball.dfy ===
/**
 The polynomial part of the virtual trackball: quaternion composition, the
 quaternion-to-matrix conversion, the viewport normalisation of mouse
 coordinates, the zero-drag short-circuit and the renormalisation counter.
 The sphere projection and the axis-angle step need square roots and
 trigonometry; the rotation they produce for a non-zero drag, and the unit
 quaternion `_q_normalize` returns, are inputs.
 */
module Trackballs {
  import opened Geometry

  /** A quaternion `[x, y, z, w]`: vector part (x, y, z), scalar part w. */
  datatype Quat = Quat(x: real, y: real, z: real, w: real)

  /** The rotation by angle zero. */
  const QIdentity: Quat := Quat(0.0, 0.0, 0.0, 1.0)

  function V(q: Quat): Vec3
  {
    Vec3(q.x, q.y, q.z)
  }

  /**
   `_q_add`, built as the source builds it from the vector helpers:
   `q1.v * q2.w + (q2.v * q1.w + q2.v x q1.v)`, then the scalar part
   `q1.w * q2.w - q1.v . q2.v`.
   */
  function QAdd(q1: Quat, q2: Quat): Quat
  {
    var t1 := Scale(V(q1), q2.w);
    var t2 := Scale(V(q2), q1.w);
    var t3 := Cross(V(q2), V(q1));
    var tf := Add(t1, Add(t2, t3));
    Quat(tf.x, tf.y, tf.z, q1.w * q2.w - Dot(V(q1), V(q2)))
  }

  /** The Hamilton product p q, written out component by component. */
  function Hamilton(p: Quat, q: Quat): Quat
  {
    Quat(p.w * q.x + p.x * q.w + p.y * q.z - p.z * q.y,
         p.w * q.y - p.x * q.z + p.y * q.w + p.z * q.x,
         p.w * q.z + p.x * q.y - p.y * q.x + p.z * q.w,
         p.w * q.w - p.x * q.x - p.y * q.y - p.z * q.z)
  }

  /** `_q_add(q1, q2)` is the Hamilton product q2 q1: apply q1, then q2. */
  lemma QAddIsHamilton(q1: Quat, q2: Quat)
    ensures QAdd(q1, q2) == Hamilton(q2, q1)
    ensures QAdd(q1, q2).w == q1.w * q2.w - Dot(V(q1), V(q2))
  {
  }

  /** The identity quaternion is a unit on both sides. */
  lemma QAddIdentity(q: Quat)
    ensures QAdd(QIdentity, q) == q
    ensures QAdd(q, QIdentity) == q
  {
    var v := V(q);
    assert V(QIdentity) == Zero;
    assert Scale(Zero, q.w) == Zero && Scale(v, 1.0) == v;
    assert Cross(v, Zero) == Zero && Cross(Zero, v) == Zero;
    assert Dot(Zero, v) == 0.0 && Dot(v, Zero) == 0.0;
  }

  /** `_q_mul`: every component times s. */
  function QMul(q: Quat, s: real): Quat
  {
    Quat(q.x * s, q.y * s, q.z * s, q.w * s)
  }

  /** `_q_dot`. */
  function QDot(a: Quat, b: Quat): real
  {
    a.x * b.x + a.y * b.y + a.z * b.z + a.w * b.w
  }

  /** Scaling a quaternion by s scales its squared length by s squared. */
  lemma QMulScalesNorm(q: Quat, s: real)
    ensures QDot(QMul(q, s), QMul(q, s)) == s * s * QDot(q, q)
    ensures QDot(q, q) >= 0.0
  {
  }

  lemma HamiltonMultipliesNorms(p: Quat, q: Quat)
    ensures QDot(Hamilton(p, q), Hamilton(p, q)) == QDot(p, p) * QDot(q, q)
  {
    HamiltonSquares(p, q, Hamilton(p, q));
  }

  /** The four-square identity for the components of a Hamilton product. */
  lemma HamiltonSquares(p: Quat, q: Quat, h: Quat)
    requires h.x == p.w * q.x + p.x * q.w + p.y * q.z - p.z * q.y
    requires h.y == p.w * q.y - p.x * q.z + p.y * q.w + p.z * q.x
    requires h.z == p.w * q.z + p.x * q.y - p.y * q.x + p.z * q.w
    requires h.w == p.w * q.w - p.x * q.x - p.y * q.y - p.z * q.z
    ensures h.x * h.x + h.y * h.y + h.z * h.z + h.w * h.w == QDot(p, p) * QDot(q, q)
  {
    FourSquares(p.x, p.y, p.z, p.w, q.x, q.y, q.z, q.w, QDot(p, p), QDot(q, q), h.x, h.y, h.z, h.w);
  }

  /**
   Euler's four-square identity, (a² + b² + c² + d²)(e² + f² + g² + k²) =
   x² + y² + z² + w², where x, y, z, w are the components of the product.
   Each square is expanded on its own and the cross terms cancel in the sum.
   */
  lemma FourSquares(a: real, b: real, c: real, d: real, e: real, f: real, g: real, k: real, m: real, n: real, x: real, y: real, z: real, w: real)
    requires x == d * e + a * k + b * g - c * f
    requires y == d * f - a * g + b * k + c * e
    requires z == d * g + a * f - b * e + c * k
    requires w == d * k - a * e - b * f - c * g
    requires m == a * a + b * b + c * c + d * d
    requires n == e * e + f * f + g * g + k * k
    ensures x * x + y * y + z * z + w * w == m * n
  {
    SquareX(a, b, c, d, e, f, g, k, x);
    SquareY(a, b, c, d, e, f, g, k, y);
    SquareZ(a, b, c, d, e, f, g, k, z);
    SquareW(a, b, c, d, e, f, g, k, w);
    SquareNorms(a, b, c, d, e, f, g, k, m, n);
    SumOfSquares(a, b, c, d, e, f, g, k, m, n, x, y, z, w);
  }

  /** The cross terms of the four squares cancel, leaving the sixteen products of squares. */
  lemma SumOfSquares(a: real, b: real, c: real, d: real, e: real, f: real, g: real, k: real, m: real, n: real, x: real, y: real, z: real, w: real)
    requires x * x == a * a * k * k + 2.0 * a * b * g * k - 2.0 * a * c * f * k + 2.0 * a * d * e * k + b * b * g * g - 2.0 * b * c * f * g + 2.0 * b * d * e * g + c * c * f * f - 2.0 * c * d * e * f + d * d * e * e
    requires y * y == a * a * g * g - 2.0 * a * b * g * k - 2.0 * a * c * e * g - 2.0 * a * d * f * g + b * b * k * k + 2.0 * b * c * e * k + 2.0 * b * d * f * k + c * c * e * e + 2.0 * c * d * e * f + d * d * f * f
    requires z * z == a * a * f * f - 2.0 * a * b * e * f + 2.0 * a * c * f * k + 2.0 * a * d * f * g + b * b * e * e - 2.0 * b * c * e * k - 2.0 * b * d * e * g + c * c * k * k + 2.0 * c * d * g * k + d * d * g * g
    requires w * w == a * a * e * e + 2.0 * a * b * e * f + 2.0 * a * c * e * g - 2.0 * a * d * e * k + b * b * f * f + 2.0 * b * c * f * g - 2.0 * b * d * f * k + c * c * g * g - 2.0 * c * d * g * k + d * d * k * k
    requires m * n == a * a * e * e + a * a * f * f + a * a * g * g + a * a * k * k + b * b * e * e + b * b * f * f + b * b * g * g + b * b * k * k + c * c * e * e + c * c * f * f + c * c * g * g + c * c * k * k + d * d * e * e + d * d * f * f + d * d * g * g + d * d * k * k
    ensures x * x + y * y + z * z + w * w == m * n
  {
  }

  lemma SquareX(a: real, b: real, c: real, d: real, e: real, f: real, g: real, k: real, t: real)
    requires t == d * e + a * k + b * g - c * f
    ensures t * t == a * a * k * k + 2.0 * a * b * g * k - 2.0 * a * c * f * k + 2.0 * a * d * e * k + b * b * g * g - 2.0 * b * c * f * g + 2.0 * b * d * e * g + c * c * f * f - 2.0 * c * d * e * f + d * d * e * e
  {
  }

  lemma SquareY(a: real, b: real, c: real, d: real, e: real, f: real, g: real, k: real, t: real)
    requires t == d * f - a * g + b * k + c * e
    ensures t * t == a * a * g * g - 2.0 * a * b * g * k - 2.0 * a * c * e * g - 2.0 * a * d * f * g + b * b * k * k + 2.0 * b * c * e * k + 2.0 * b * d * f * k + c * c * e * e + 2.0 * c * d * e * f + d * d * f * f
  {
  }

  lemma SquareZ(a: real, b: real, c: real, d: real, e: real, f: real, g: real, k: real, t: real)
    requires t == d * g + a * f - b * e + c * k
    ensures t * t == a * a * f * f - 2.0 * a * b * e * f + 2.0 * a * c * f * k + 2.0 * a * d * f * g + b * b * e * e - 2.0 * b * c * e * k - 2.0 * b * d * e * g + c * c * k * k + 2.0 * c * d * g * k + d * d * g * g
  {
  }

  lemma SquareW(a: real, b: real, c: real, d: real, e: real, f: real, g: real, k: real, t: real)
    requires t == d * k - a * e - b * f - c * g
    ensures t * t == a * a * e * e + 2.0 * a * b * e * f + 2.0 * a * c * e * g - 2.0 * a * d * e * k + b * b * f * f + 2.0 * b * c * f * g - 2.0 * b * d * f * k + c * c * g * g - 2.0 * c * d * g * k + d * d * k * k
  {
  }

  lemma SquareNorms(a: real, b: real, c: real, d: real, e: real, f: real, g: real, k: real, m: real, n: real)
    requires m == a * a + b * b + c * c + d * d
    requires n == e * e + f * f + g * g + k * k
    ensures m * n == a * a * e * e + a * a * f * f + a * a * g * g + a * a * k * k + b * b * e * e + b * b * f * f + b * b * g * g + b * b * k * k + c * c * e * e + c * c * f * f + c * c * g * g + c * c * k * k + d * d * e * e + d * d * f * f + d * d * g * g + d * d * k * k
  {
  }

  /**
   The squared length of a composition is the product of the squared
   lengths: composing unit quaternions gives a unit quaternion, and only
   rounding, which the model does not have, makes renormalising necessary.
   */
  lemma QAddMultipliesNorms(q1: Quat, q2: Quat)
    ensures QDot(QAdd(q1, q2), QAdd(q1, q2)) == QDot(q1, q1) * QDot(q2, q2)
  {
    QAddIsHamilton(q1, q2);
    HamiltonMultipliesNorms(q2, q1);
  }

  // ---- _q_rotmatrix --------------------------------------------------------------

  const Zeros16: seq<real> :=
    [0.0, 0.0, 0.0, 0.0, 0.0, 0.0, 0.0, 0.0, 0.0, 0.0, 0.0, 0.0, 0.0, 0.0, 0.0, 0.0]

  /** The 4x4 identity as 16 numbers. */
  const Identity16: seq<real> :=
    [1.0, 0.0, 0.0, 0.0, 0.0, 1.0, 0.0, 0.0, 0.0, 0.0, 1.0, 0.0, 0.0, 0.0, 0.0, 1.0]

  /**
   `_q_rotmatrix` as the source writes it: sixteen zeros, then entries
   0, 1, 2, 5, 6, 8, 9, 10 and 15 assigned. Entry 4 is never assigned.
   */
  function RotMatrixAsWritten(q: Quat): (m: seq<real>)
    ensures |m| == 16
    ensures m[3] == 0.0 && m[4] == 0.0 && m[7] == 0.0
    ensures m[11] == 0.0 && m[12] == 0.0 && m[13] == 0.0 && m[14] == 0.0 && m[15] == 1.0
  {
    Zeros16
      [0 := 1.0 - 2.0 * (q.y * q.y + q.z * q.z)]
      [1 := 2.0 * (q.x * q.y - q.z * q.w)]
      [2 := 2.0 * (q.z * q.x + q.y * q.w)]
      [5 := 1.0 - 2.0 * (q.z * q.z + q.x * q.x)]
      [6 := 2.0 * (q.y * q.z - q.x * q.w)]
      [8 := 2.0 * (q.z * q.x - q.y * q.w)]
      [9 := 2.0 * (q.y * q.z + q.x * q.w)]
      [10 := 1.0 - 2.0 * (q.y * q.y + q.x * q.x)]
      [15 := 1.0]
  }

  /** `_q_rotmatrix` with entry 4 assigned `2 (x y + z w)`, the one the source misses. */
  function RotMatrix(q: Quat): (m: seq<real>)
    ensures |m| == 16
    ensures m[3] == 0.0 && m[7] == 0.0
    ensures m[11] == 0.0 && m[12] == 0.0 && m[13] == 0.0 && m[14] == 0.0 && m[15] == 1.0
  {
    RotMatrixAsWritten(q)[4 := 2.0 * (q.x * q.y + q.z * q.w)]
  }

  /** The two versions differ in entry 4 alone, where the source leaves a zero. */
  lemma RotMatrixDiffersOnlyAtFour(q: Quat)
    ensures RotMatrixAsWritten(q)[4] == 0.0
    ensures RotMatrix(q)[4 := 0.0] == RotMatrixAsWritten(q)
    ensures forall i :: 0 <= i < 16 && i != 4 ==> RotMatrix(q)[i] == RotMatrixAsWritten(q)[i]
  {
  }

  /** Entries 4k, 4k+1, 4k+2 of a 16-entry matrix: one axis of its 3x3 block. */
  function MatrixAxis(m: seq<real>, k: nat): Vec3
    requires |m| == 16 && k < 3
  {
    Vec3(m[4 * k], m[4 * k + 1], m[4 * k + 2])
  }

  /** The three axes of the 3x3 block are unit length and pairwise orthogonal. */
  predicate Orthonormal(m: seq<real>)
    requires |m| == 16
  {
    && Dot(MatrixAxis(m, 0), MatrixAxis(m, 0)) == 1.0
    && Dot(MatrixAxis(m, 1), MatrixAxis(m, 1)) == 1.0
    && Dot(MatrixAxis(m, 2), MatrixAxis(m, 2)) == 1.0
    && Dot(MatrixAxis(m, 0), MatrixAxis(m, 1)) == 0.0
    && Dot(MatrixAxis(m, 0), MatrixAxis(m, 2)) == 0.0
    && Dot(MatrixAxis(m, 1), MatrixAxis(m, 2)) == 0.0
  }

  /** Both versions turn the identity quaternion into the identity matrix. */
  lemma RotMatrixOfIdentity()
    ensures RotMatrix(QIdentity) == Identity16
    ensures RotMatrixAsWritten(QIdentity) == Identity16
  {
  }

  /**
   For a unit quaternion the corrected matrix is a rotation. Each identity
   below is the polynomial fact `|axis|^2 - 1 = c (|q|^2 - 1)` (or
   `axis . axis' = c (|q|^2 - 1)`), which vanishes for unit q.
   */
  lemma RotMatrixIsRotation(q: Quat)
    requires QDot(q, q) == 1.0
    ensures Orthonormal(RotMatrix(q))
  {
    UnitAxes00(q);
    UnitAxes11(q);
    UnitAxes22(q);
    UnitAxes01(q);
    UnitAxes02(q);
    UnitAxes12(q);
  }

  /** Axis 0 of the corrected matrix as a polynomial in the quaternion's components. */
  function Axis0Of(x: real, y: real, z: real, w: real): Vec3
  {
    Vec3(1.0 - 2.0 * (y * y + z * z), 2.0 * (x * y - z * w), 2.0 * (z * x + y * w))
  }

  /** Axis 1 of the corrected matrix; its first entry is the one the source leaves at 0. */
  function Axis1Of(x: real, y: real, z: real, w: real): Vec3
  {
    Vec3(2.0 * (x * y + z * w), 1.0 - 2.0 * (z * z + x * x), 2.0 * (y * z - x * w))
  }

  /** Axis 2 of the corrected matrix. */
  function Axis2Of(x: real, y: real, z: real, w: real): Vec3
  {
    Vec3(2.0 * (z * x - y * w), 2.0 * (y * z + x * w), 1.0 - 2.0 * (y * y + x * x))
  }

  /** Axis 0 of the corrected matrix, read off its entries. */
  lemma ReadAxis0(q: Quat)
    ensures MatrixAxis(RotMatrix(q), 0) == Axis0Of(q.x, q.y, q.z, q.w)
  {
  }

  /** Axis 1 of the corrected matrix, read off its entries. */
  lemma ReadAxis1(q: Quat)
    ensures MatrixAxis(RotMatrix(q), 1) == Axis1Of(q.x, q.y, q.z, q.w)
  {
  }

  /** Axis 2 of the corrected matrix, read off its entries. */
  lemma ReadAxis2(q: Quat)
    ensures MatrixAxis(RotMatrix(q), 2) == Axis2Of(q.x, q.y, q.z, q.w)
  {
  }

  /** For a unit quaternion, axis 0 has unit length in the corrected matrix. */
  lemma UnitAxes00(q: Quat)
    requires QDot(q, q) == 1.0
    ensures Dot(MatrixAxis(RotMatrix(q), 0), MatrixAxis(RotMatrix(q), 0)) == 1.0
  {
    ReadAxis0(q);
    UnitDot00(q.x, q.y, q.z, q.w);
  }

  lemma UnitDot00(x: real, y: real, z: real, w: real)
    requires x * x + y * y + z * z + w * w == 1.0
    ensures Dot(Axis0Of(x, y, z, w), Axis0Of(x, y, z, w)) == 1.0
  {
    AxisNorm0(x, y, z, w, 1.0);
  }

  /** For a unit quaternion, axis 1 has unit length in the corrected matrix. */
  lemma UnitAxes11(q: Quat)
    requires QDot(q, q) == 1.0
    ensures Dot(MatrixAxis(RotMatrix(q), 1), MatrixAxis(RotMatrix(q), 1)) == 1.0
  {
    ReadAxis1(q);
    UnitDot11(q.x, q.y, q.z, q.w);
  }

  lemma UnitDot11(x: real, y: real, z: real, w: real)
    requires x * x + y * y + z * z + w * w == 1.0
    ensures Dot(Axis1Of(x, y, z, w), Axis1Of(x, y, z, w)) == 1.0
  {
    AxisNorm1(x, y, z, w, 1.0);
  }

  /** For a unit quaternion, axis 2 has unit length in the corrected matrix. */
  lemma UnitAxes22(q: Quat)
    requires QDot(q, q) == 1.0
    ensures Dot(MatrixAxis(RotMatrix(q), 2), MatrixAxis(RotMatrix(q), 2)) == 1.0
  {
    ReadAxis2(q);
    UnitDot22(q.x, q.y, q.z, q.w);
  }

  lemma UnitDot22(x: real, y: real, z: real, w: real)
    requires x * x + y * y + z * z + w * w == 1.0
    ensures Dot(Axis2Of(x, y, z, w), Axis2Of(x, y, z, w)) == 1.0
  {
    AxisNorm2(x, y, z, w, 1.0);
  }

  /** For a unit quaternion, axes 0 and 1 are orthogonal in the corrected matrix. */
  lemma UnitAxes01(q: Quat)
    requires QDot(q, q) == 1.0
    ensures Dot(MatrixAxis(RotMatrix(q), 0), MatrixAxis(RotMatrix(q), 1)) == 0.0
  {
    ReadAxis0(q);
    ReadAxis1(q);
    UnitDot01(q.x, q.y, q.z, q.w);
  }

  lemma UnitDot01(x: real, y: real, z: real, w: real)
    requires x * x + y * y + z * z + w * w == 1.0
    ensures Dot(Axis0Of(x, y, z, w), Axis1Of(x, y, z, w)) == 0.0
  {
    AxisCross01(x, y, z, w, 1.0);
  }

  /** For a unit quaternion, axes 0 and 2 are orthogonal in the corrected matrix. */
  lemma UnitAxes02(q: Quat)
    requires QDot(q, q) == 1.0
    ensures Dot(MatrixAxis(RotMatrix(q), 0), MatrixAxis(RotMatrix(q), 2)) == 0.0
  {
    ReadAxis0(q);
    ReadAxis2(q);
    UnitDot02(q.x, q.y, q.z, q.w);
  }

  lemma UnitDot02(x: real, y: real, z: real, w: real)
    requires x * x + y * y + z * z + w * w == 1.0
    ensures Dot(Axis0Of(x, y, z, w), Axis2Of(x, y, z, w)) == 0.0
  {
    AxisCross02(x, y, z, w, 1.0);
  }

  /** For a unit quaternion, axes 1 and 2 are orthogonal in the corrected matrix. */
  lemma UnitAxes12(q: Quat)
    requires QDot(q, q) == 1.0
    ensures Dot(MatrixAxis(RotMatrix(q), 1), MatrixAxis(RotMatrix(q), 2)) == 0.0
  {
    ReadAxis1(q);
    ReadAxis2(q);
    UnitDot12(q.x, q.y, q.z, q.w);
  }

  lemma UnitDot12(x: real, y: real, z: real, w: real)
    requires x * x + y * y + z * z + w * w == 1.0
    ensures Dot(Axis1Of(x, y, z, w), Axis2Of(x, y, z, w)) == 0.0
  {
    AxisCross12(x, y, z, w, 1.0);
  }

  lemma AxisNorm0(x: real, y: real, z: real, w: real, n: real)
    requires n == x * x + y * y + z * z + w * w
    ensures Dot(Axis0Of(x, y, z, w), Axis0Of(x, y, z, w)) == 1.0 + 4.0 * (y * y + z * z) * (n - 1.0)
  {
  }

  lemma AxisNorm1(x: real, y: real, z: real, w: real, n: real)
    requires n == x * x + y * y + z * z + w * w
    ensures Dot(Axis1Of(x, y, z, w), Axis1Of(x, y, z, w)) == 1.0 + 4.0 * (x * x + z * z) * (n - 1.0)
  {
  }

  lemma AxisNorm2(x: real, y: real, z: real, w: real, n: real)
    requires n == x * x + y * y + z * z + w * w
    ensures Dot(Axis2Of(x, y, z, w), Axis2Of(x, y, z, w)) == 1.0 + 4.0 * (x * x + y * y) * (n - 1.0)
  {
  }

  lemma AxisCross01(x: real, y: real, z: real, w: real, n: real)
    requires n == x * x + y * y + z * z + w * w
    ensures Dot(Axis0Of(x, y, z, w), Axis1Of(x, y, z, w)) == -4.0 * x * y * (n - 1.0)
  {
  }

  lemma AxisCross02(x: real, y: real, z: real, w: real, n: real)
    requires n == x * x + y * y + z * z + w * w
    ensures Dot(Axis0Of(x, y, z, w), Axis2Of(x, y, z, w)) == -4.0 * x * z * (n - 1.0)
  {
  }

  lemma AxisCross12(x: real, y: real, z: real, w: real, n: real)
    requires n == x * x + y * y + z * z + w * w
    ensures Dot(Axis1Of(x, y, z, w), Axis2Of(x, y, z, w)) == -4.0 * y * z * (n - 1.0)
  {
  }

  /**
   A rotation of about 74 degrees about z, q = (0, 0, 0.6, 0.8), is a unit
   quaternion, yet the source's matrix for it is not a rotation: its second
   axis is (0, 0.28, 0) where the rotation's is (0.96, 0.28, 0).
   */
  lemma RotMatrixAsWrittenIsNotRotation()
    ensures QDot(Quat(0.0, 0.0, 0.6, 0.8), Quat(0.0, 0.0, 0.6, 0.8)) == 1.0
    ensures MatrixAxis(RotMatrixAsWritten(Quat(0.0, 0.0, 0.6, 0.8)), 1) == Vec3(0.0, 0.28, 0.0)
    ensures MatrixAxis(RotMatrix(Quat(0.0, 0.0, 0.6, 0.8)), 1) == Vec3(0.96, 0.28, 0.0)
    ensures !Orthonormal(RotMatrixAsWritten(Quat(0.0, 0.0, 0.6, 0.8)))
  {
  }

  // ---- drag_to -------------------------------------------------------------------

  /** `(2 x - w) / w`: the pixel column x of a viewport w wide, mapped to [-1, 1]. */
  function NormalizeCoord(x: real, w: real): real
    requires w != 0.0
  {
    (2.0 * x - w) / w
  }

  /** `(2 dx) / w`: a pixel displacement in the same units. */
  function NormalizeDelta(dx: real, w: real): real
    requires w != 0.0
  {
    (2.0 * dx) / w
  }

  /** The inverse map from [-1, 1] back to pixels. */
  function Denormalize(u: real, w: real): real
  {
    (u + 1.0) * w / 2.0
  }

  /**
   The left edge, the centre and the right edge of the viewport map to -1, 0
   and 1; the map is undone by `Denormalize`, and the normalised delta is the
   difference of the normalised end points.
   */
  lemma NormalizationLaws(x: real, dx: real, w: real)
    requires w != 0.0
    ensures NormalizeCoord(0.0, w) == -1.0
    ensures NormalizeCoord(w / 2.0, w) == 0.0
    ensures NormalizeCoord(w, w) == 1.0
    ensures Denormalize(NormalizeCoord(x, w), w) == x
    ensures NormalizeDelta(dx, w) == NormalizeCoord(x + dx, w) - NormalizeCoord(x, w)
    ensures NormalizeDelta(dx, w) == 0.0 <==> dx == 0.0
  {
    NormalizeLeft(w);
    NormalizeCentre(w);
    NormalizeRight(w);
    NormalizeRoundTrip(x, w);
    NormalizeDeltaDifference(x, dx, w);
    NormalizeDeltaZero(dx, w);
  }

  lemma NormalizeLeft(w: real)
    requires w != 0.0
    ensures NormalizeCoord(0.0, w) == -1.0
  {
    assert 2.0 * 0.0 - w == -w;
    assert (-w) / w == -1.0 by {
      assert (-w) == (-1.0) * w;
    }
  }

  lemma NormalizeCentre(w: real)
    requires w != 0.0
    ensures NormalizeCoord(w / 2.0, w) == 0.0
  {
  }

  lemma NormalizeRight(w: real)
    requires w != 0.0
    ensures NormalizeCoord(w, w) == 1.0
  {
  }

  lemma NormalizeRoundTrip(x: real, w: real)
    requires w != 0.0
    ensures Denormalize(NormalizeCoord(x, w), w) == x
  {
  }

  lemma NormalizeDeltaDifference(x: real, dx: real, w: real)
    requires w != 0.0
    ensures NormalizeDelta(dx, w) == NormalizeCoord(x + dx, w) - NormalizeCoord(x, w)
  {
  }

  lemma NormalizeDeltaZero(dx: real, w: real)
    requires w != 0.0
    ensures NormalizeDelta(dx, w) == 0.0 <==> dx == 0.0
  {
  }

  /** Larger columns map to larger values when the viewport has positive width. */
  lemma NormalizeMonotone(x1: real, x2: real, w: real)
    requires w > 0.0 && x1 <= x2
    ensures NormalizeCoord(x1, w) <= NormalizeCoord(x2, w)
  {
    assert NormalizeCoord(x2, w) - NormalizeCoord(x1, w) == 2.0 * (x2 - x1) / w;
  }

  /**
   `_rotate`: a drag of zero in both directions is no rotation. For any other
   drag the rotation comes from the sphere projection and the axis-angle
   step, which `increment` stands for.
   */
  function Rotate(x: real, y: real, dx: real, dy: real, increment: Quat): (q: Quat)
    ensures dx == 0.0 && dy == 0.0 ==> q == QIdentity
    ensures dx != 0.0 || dy != 0.0 ==> q == increment
  {
    if dx == 0.0 && dy == 0.0 then QIdentity else increment
  }

  /**
   What the rotation of a drag does when `_q_add` composes it with an
   orientation p: a zero drag is a unit on either side and a unit
   quaternion, and any other drag multiplies p by `increment`.
   */
  lemma RotateComposes(x: real, y: real, dx: real, dy: real, increment: Quat, p: Quat)
    ensures dx == 0.0 && dy == 0.0 ==>
      QAdd(Rotate(x, y, dx, dy, increment), p) == p && QAdd(p, Rotate(x, y, dx, dy, increment)) == p
    ensures dx == 0.0 && dy == 0.0 ==> QDot(Rotate(x, y, dx, dy, increment), Rotate(x, y, dx, dy, increment)) == 1.0
    ensures dx != 0.0 || dy != 0.0 ==> QAdd(Rotate(x, y, dx, dy, increment), p) == Hamilton(p, increment)
  {
    QAddIdentity(p);
    QAddIsHamilton(increment, p);
  }

  /** `_RENORMCOUNT`: the count past which the rotation is renormalised. */
  const RENORMCOUNT: int := 97

  datatype Trackball = Trackball(rotation: Quat, count: int, matrix: seq<real>)

  /**
   `Trackball.__init__` with `_set_orientation`: the rotation is `_q_add` of
   the rotation about x and the rotation about z, which the caller computes
   from theta and phi, and the count starts at zero.
   */
  function NewTrackball(xrot: Quat, zrot: Quat): (tb: Trackball)
    ensures tb.count == 0 && tb.matrix == RotMatrix(tb.rotation)
    ensures RotMatrixAsWritten(tb.rotation) == tb.matrix[4 := 0.0]
    ensures tb.rotation == Hamilton(zrot, xrot)
    ensures xrot == QIdentity ==> tb.rotation == zrot
    ensures zrot == QIdentity ==> tb.rotation == xrot
  {
    QAddIsHamilton(xrot, zrot);
    QAddIdentity(xrot);
    QAddIdentity(zrot);
    var rotation := QAdd(xrot, zrot);
    RotMatrixDiffersOnlyAtFour(rotation);
    Trackball(rotation, 0, RotMatrix(rotation))
  }

  /** The counter step of `drag_to`: count up, and past `RENORMCOUNT` start over. */
  function Tick(count: int): (r: (int, bool))
    ensures 0 <= count <= RENORMCOUNT ==> 0 <= r.0 <= RENORMCOUNT
    ensures r.1 <==> count >= RENORMCOUNT
    ensures r.1 ==> r.0 == 0
    ensures 0 <= count <= RENORMCOUNT ==> r.0 == (count + 1) % (RENORMCOUNT + 1)
  {
    var c := count + 1;
    if c > RENORMCOUNT then (0, true) else (c, false)
  }

  /**
   `Trackball.drag_to` on a viewport w by h: normalise the mouse coordinates,
   compose the drag's rotation after the current one, renormalise on every
   98th drag, and rebuild the matrix. `normalize` stands for `_q_normalize`.
   */
  function DragTo(tb: Trackball, x: real, y: real, dx: real, dy: real, w: real, h: real,
                  increment: Quat, normalize: Quat -> Quat): (r: Trackball)
    requires w != 0.0 && h != 0.0
    ensures 0 <= tb.count <= RENORMCOUNT ==> 0 <= r.count <= RENORMCOUNT
    ensures r.matrix == RotMatrix(r.rotation)
    ensures tb.count < RENORMCOUNT ==> r.count == tb.count + 1
    ensures tb.count >= RENORMCOUNT ==> r.count == 0
    ensures dx == 0.0 && dy == 0.0 && tb.count < RENORMCOUNT ==> r.rotation == tb.rotation
    ensures dx == 0.0 && dy == 0.0 && tb.count >= RENORMCOUNT ==> r.rotation == normalize(tb.rotation)
  {
    var nx, ny := NormalizeCoord(x, w), NormalizeCoord(y, h);
    var ndx, ndy := NormalizeDelta(dx, w), NormalizeDelta(dy, h);
    NormalizationLaws(x, dx, w);
    NormalizationLaws(y, dy, h);
    QAddIdentity(tb.rotation);
    var q := Rotate(nx, ny, ndx, ndy, increment);
    var rotation := QAdd(q, tb.rotation);
    var (count, renorm) := Tick(tb.count);
    var rotation := if renorm then normalize(rotation) else rotation;
    Trackball(rotation, count, RotMatrix(rotation))
  }

  /**
   A non-zero drag composes its rotation after the current orientation, as
   `_q_add(q, rotation)` does, and renormalises on the 98th drag; the matrix
   the source builds from that rotation is the model's with entry 4 zeroed.
   */
  lemma DragComposes(tb: Trackball, x: real, y: real, dx: real, dy: real, w: real, h: real,
                     increment: Quat, normalize: Quat -> Quat)
    requires w != 0.0 && h != 0.0
    ensures var r := DragTo(tb, x, y, dx, dy, w, h, increment, normalize);
      (dx != 0.0 || dy != 0.0) && tb.count < RENORMCOUNT ==> r.rotation == Hamilton(tb.rotation, increment)
    ensures var r := DragTo(tb, x, y, dx, dy, w, h, increment, normalize);
      (dx != 0.0 || dy != 0.0) && tb.count >= RENORMCOUNT ==> r.rotation == normalize(Hamilton(tb.rotation, increment))
    ensures var r := DragTo(tb, x, y, dx, dy, w, h, increment, normalize);
      RotMatrixAsWritten(r.rotation) == r.matrix[4 := 0.0]
  {
    var r := DragTo(tb, x, y, dx, dy, w, h, increment, normalize);
    NormalizationLaws(x, dx, w);
    NormalizationLaws(y, dy, h);
    if dx != 0.0 || dy != 0.0 {
      var step := Rotate(NormalizeCoord(x, w), NormalizeCoord(y, h), NormalizeDelta(dx, w), NormalizeDelta(dy, h), increment);
      assert step == increment;
      QAddIsHamilton(increment, tb.rotation);
    }
    RotMatrixDiffersOnlyAtFour(r.rotation);
  }

  /** One mouse drag: position, displacement, and the rotation it would produce. */
  datatype Drag = Drag(x: real, y: real, dx: real, dy: real, increment: Quat)

  function DragAll(tb: Trackball, drags: seq<Drag>, w: real, h: real, normalize: Quat -> Quat): Trackball
    requires w != 0.0 && h != 0.0
  {
    if |drags| == 0 then tb
    else
      var d := drags[|drags| - 1];
      DragTo(DragAll(tb, drags[..|drags| - 1], w, h, normalize), d.x, d.y, d.dx, d.dy, w, h, d.increment, normalize)
  }

  /**
   Across any sequence of drags the counter stays in [0, 97] and counts the
   drags modulo 98, so renormalisation happens on every 98th drag.
   */
  lemma {:induction false} CounterCycles(tb: Trackball, drags: seq<Drag>, w: real, h: real, normalize: Quat -> Quat)
    requires w != 0.0 && h != 0.0
    requires 0 <= tb.count <= RENORMCOUNT
    ensures 0 <= DragAll(tb, drags, w, h, normalize).count <= RENORMCOUNT
    ensures DragAll(tb, drags, w, h, normalize).count == (tb.count + |drags|) % (RENORMCOUNT + 1)
  {
    DragAllCount(tb, drags, w, h, normalize);
    TickAllCycles(tb.count, |drags|);
  }

  /** The counter after n drags, one `Tick` per drag. */
  function TickAll(count: int, n: nat): int
  {
    if n == 0 then count else Tick(TickAll(count, n - 1)).0
  }

  /** Only the counter matters for the count: n drags tick it n times. */
  lemma {:induction false} DragAllCount(tb: Trackball, drags: seq<Drag>, w: real, h: real, normalize: Quat -> Quat)
    requires w != 0.0 && h != 0.0
    ensures DragAll(tb, drags, w, h, normalize).count == TickAll(tb.count, |drags|)
    decreases |drags|
  {
    if |drags| > 0 {
      DragAllCount(tb, drags[..|drags| - 1], w, h, normalize);
      DragAllLast(tb, drags, w, h, normalize);
    }
  }

  /** n ticks from a count in [0, 97] land at the count plus n, modulo 98. */
  lemma {:induction false} TickAllCycles(count: int, n: nat)
    requires 0 <= count <= RENORMCOUNT
    ensures 0 <= TickAll(count, n) <= RENORMCOUNT
    ensures TickAll(count, n) == (count + n) % (RENORMCOUNT + 1)
  {
    if n > 0 {
      TickAllCycles(count, n - 1);
      CountSucc(count + n - 1);
    }
  }

  /** The last drag of a sequence moves the counter one tick on from the rest. */
  lemma DragAllLast(tb: Trackball, drags: seq<Drag>, w: real, h: real, normalize: Quat -> Quat)
    requires w != 0.0 && h != 0.0 && |drags| > 0
    ensures DragAll(tb, drags, w, h, normalize).count == Tick(DragAll(tb, drags[..|drags| - 1], w, h, normalize).count).0
  {
  }

  /** One more step round the cycle of 98. */
  lemma CountSucc(a: nat)
    ensures (a % (RENORMCOUNT + 1) + 1) % (RENORMCOUNT + 1) == (a + 1) % (RENORMCOUNT + 1)
    ensures a % (RENORMCOUNT + 1) < RENORMCOUNT ==> (a + 1) % (RENORMCOUNT + 1) == a % (RENORMCOUNT + 1) + 1
    ensures a % (RENORMCOUNT + 1) == RENORMCOUNT ==> (a + 1) % (RENORMCOUNT + 1) == 0
  {
  }
}

=== FILE: wrappers.dfy ===
/** Failure-carrying datatypes shared by the modules of the modeller. */
module Wrappers {

  /** An optional value: stands for Python's `None` versus a present value. */
  datatype Option<+T> = None | Some(value: T)

  /** The outcome of an operation that can raise an error in the source. */
  datatype Result<+R, +E> = Success(value: R) | Failure(error: E)
}
